=== FILE: README.md ===
# Jarvis concierge agent: a Dafny model of its core

Jarvis is a small concierge agent. Each user message starts one turn of
`chat` (agent.py). The configured backend decides what the turn does:

- **Offline backend (`mock`).** A keyword planner picks a tool or a canned
  answer.
- **Remote backend (Hugging Face or Gemini).** The model is asked for a JSON
  action. It either answers directly or names one of six tools. When it names
  a tool, the tool runs and the model is asked again for the final answer.

The tools come from the `TOOLS` registry (tools.py):

- `web_search`: a results page is scraped for titles and links.
- `read_file`: reads a file inside the project folder, with a size limit and
  truncation.
- `remember_info` and `recall_memory`: a note store.
- `set_reminder` and `check_reminders`: a reminder store.

The agent keeps one dialogue text, and every turn appends to it. Before each
model call the dialogue is compacted once it grows past the budget.
Compaction puts the stripped system prompt back at the head of the dialogue.
In the model, the agent holds that text as its `instruction`, which
`NewAgent` sets and no operation changes.

The model is functional. The agent and the two stores are immutable values,
and every operation is a pure function returning the new state. The following
are parameters of the model, not modelled:

- the remote text generator;
- the JSON codec: `json.loads`, `json.dumps`, and `json.dumps(..., ensure_ascii=False)`, which writes the "Tool args:" line of the follow-up prompt;
- the clock and its two renderings (`isoformat` and `strftime`);
- the search-page fetch;
- path normalisation and the file system.

`chat` is generic over the state the tools act on. `Registry` instantiates it
with the note and reminder stores.

The registry and `chat` run the corrected definitions of the three defects
listed under "## Findings". The as-written versions are modelled beside them.

Modules, one per file:

| module | file | covers |
|---|---|---|
| `Options` | options.dfy | `Option` and `Result` (a value, or the exception raised) |
| `PyStr` | py_str.dfy | Python `str` semantics: `find`, `rfind`, slicing, `strip`, `lower`, `replace`, `join`, `int()`, `str()` |
| `Json` | json.dfy | decoded JSON values, truthiness, `dict.get`, the codec as an oracle |
| `Reminders` | reminders.dfy | `set_reminder`, `check_reminders` |
| `Notes` | notes.dfy | `remember_info`, `recall_memory` |
| `WebSearch` | web_search.dfy | `web_search` and its extraction loop |
| `ReadFile` | read_file.dfy | `read_file`: containment, existence, size, read error, truncation |
| `ToolCalls` | tool_calls.dfy | how a tool is called and how a call ends |
| `Registry` | registry.dfy | `TOOLS`, and keyword binding of each tool's parameters |
| `Context` | context.dfy | `SYSTEM_PROMPT`, the agent state, `_compact_context` |
| `Backend` | backend.dfy | `_call_model` |
| `Actions` | actions.dfy | the JSON action format and how `chat` reads a backend reply |
| `Planner` | planner.dfy | `_mock_decide_action` |
| `Dispatch` | dispatch.dfy | `_run_tool` |
| `Chat` | chat.dfy | `chat` |

## Model

| member | source | states |
|---|---|---|
| PyStr.Lower | agent.py:289 | lower-casing keeps the length, leaves no capital letter, and changes only capitals, each to its lower-case letter |
| PyStr.Strip | agent.py:408 | the result is empty exactly when the text is all whitespace; otherwise it starts and ends with non-whitespace |
| PyStr.StripStretch | agent.py:408 | the result is the text itself from where its leading whitespace ends, with only whitespace before and after it: nothing inside is changed or dropped |
| PyStr.StripIdempotent | agent.py:436 | stripping twice is stripping once |
| PyStr.Find | tools.py:89 | -1 or the first index at or after the normalised start where the needle occurs, and no occurrence lies before it |
| PyStr.RFind | tools.py:93 | -1 or the last index whose whole occurrence lies within the normalised start..end, and no later one does |
| PyStr.FindIs | tools.py:89 | conversely, an occurrence at or after the start with none between the start and it is what `find` returns |
| PyStr.RFindIs | tools.py:93 | conversely, an occurrence wholly within the end with no later one is what `rfind` returns |
| PyStr.Slice | tools.py:98 | the clamped slice, or empty when the bounds cross |
| PyStr.Replace | agent.py:301 | a replacement no longer than the pattern never lengthens the text |
| PyStr.ReplaceAbsent | agent.py:301 | text without the pattern is unchanged |
| PyStr.ReplaceAtFirst | agent.py:301 | the first occurrence of the pattern is replaced, the text before it kept, and the rest of the text replaced in turn |
| PyStr.JoinContains | tools.py:113 | every joined item occurs in the joined text |
| PyStr.ParseInt | tools.py:207 | `int()` of text succeeds exactly when the stripped text is an optional sign followed by ASCII digits; unsigned digits give their decimal value, `+` digits the same value and `-` digits its negation; a negative value comes only from text whose stripped form starts with `-` |
| PyStr.ParseIntToString | tools.py:207 | `int(str(i)) == i` for every integer |
| Json.Get | agent.py:366 | `dict.get`: present exactly when the key is, with the stored value |
| Json.GetOr | agent.py:367 | `d.get(k) or default`: the stored value when it is truthy, else the default |
| Json.ScalarText | agent.py:257 | `str()` is defined exactly on hashable values, and is the string itself for a string |
| Json.Text | agent.py:429 | the f-string text of a value agrees with `str()` on scalars and is the string itself for a string |
| Reminders.SetReminder | tools.py:194-223 | exactly one reminder is appended, undelivered, created now, due now plus 60 seconds per minute, with that time's ISO text stored as its due text; earlier ones are kept |
| Reminders.MarkDue | tools.py:235-244 | same length; each record keeps its fields and becomes delivered exactly when it was due |
| Reminders.DueOnes | tools.py:235-244 | a record is reported exactly when it is a due record of the store; none are reported exactly when none is due |
| Reminders.CheckReminders | tools.py:226-257 | the store after the check marks exactly the due records; the report is the no-reminders text exactly when none is due, and otherwise the header followed by one line per due record, each with its stored due text |
| Reminders.ReportListsDelivered | tools.py:235-257 | every record a check marks delivered has its line in that check's report |
| Reminders.CheckTwiceReportsNothing | tools.py:237-244 | a second check at the same time reports nothing and changes nothing |
| Reminders.UnparseableStaysPending | tools.py:238-241 | a record whose due time cannot be parsed is left untouched |
| Reminders.DueOnesAppend | tools.py:236-243 | the due records of a concatenation are those of each part, in order |
| Reminders.SetNowThenCheck | tools.py:194-257 | a reminder set for 0 minutes is reported, with its message and stored due text, and delivered by any later check |
| Notes.RememberInfo | tools.py:159-170 | exactly one note is appended with the timestamp; the confirmation names the timestamp |
| Notes.Window | tools.py:185 | the newest min(20, n) notes, oldest first |
| Notes.RecallMemory | tools.py:173-189 | the no-memory text exactly when the store is empty; otherwise the header followed by exactly the lines of the newest twenty notes, oldest first |
| Notes.RecallListsWindow | tools.py:184-187 | each of the newest twenty notes appears as "- [timestamp] note" |
| Notes.RememberThenRecall | tools.py:159-189 | a remembered note is shown by the next recall |
| WebSearch.UnescapePlain | tools.py:103 | a title without `&` is shown unchanged |
| WebSearch.UnescapeQuot | tools.py:103 | an escaped quote between texts without `&` is decoded to `"` |
| WebSearch.UnescapeAmp | tools.py:103 | an escaped ampersand between texts without `&` is decoded to `&`, unless the text after it reads `quot;` |
| WebSearch.EscapedQuoteDecodedTwice | tools.py:103 | `&amp;quot;` is decoded twice, to `"`, because the two replaces run in sequence |
| WebSearch.Entry | tools.py:105 | the k-th result line starts with "k. " |
| WebSearch.NextHitContinues | tools.py:89-106 | one pass of the loop goes on exactly when a result anchor follows the position and an `href="` lies before it; the link read stops before the first quote |
| WebSearch.Collect | tools.py:88-106 | the loop keeps the results found so far and never collects more than five |
| WebSearch.CollectStep | tools.py:88-106 | the loop stops exactly when no further result is found; otherwise it appends, as the next numbered entry, the decoded title and the link of that result and goes on from the end of its title |
| WebSearch.CollectNumbered | tools.py:105 | each added result is numbered by its position, from 1 |
| WebSearch.Results | tools.py:84-106 | at most five results, the i-th numbered i+1 |
| WebSearch.Search | tools.py:61-113 | a missing package, a raised fetch and a non-200 status each give their message; a page without results gives the no-results text; otherwise the text starts with the header and contains every result |
| WebSearch.NoAnchorNoResults | tools.py:89-91 | a page without a result anchor gives the no-results message |
| WebSearch.AnchorGivesResult | tools.py:88-113 | a page whose first anchor has a link before it gives the results header |
| WebSearch.FirstResultReadsPage | tools.py:89-105 | the first result is numbered 1, its title is the decoded text between the first `>` after the first anchor and the next `</a>`, and its link is the text from the last `href="` before that anchor to the next quote |
| ReadFile.Cap | tools.py:151-152 | content of at most 4000 characters is kept; longer content keeps its first 4000 characters and the truncation note |
| ReadFile.Check | tools.py:129-152 | denial exactly when outside the root; not-found exactly when allowed but missing; too-large exactly when allowed, present and over 200 KB; the content, capped, exactly when every check passes; an unreadable file gives its read error |
| ReadFile.ReadFileAsWritten | tools.py:120-154 | with the source's bare prefix test, any path not starting with the root is denied |
| ReadFile.ReadFile | tools.py:120-154 | with containment as intended, any path not at or below the root is denied |
| ReadFile.SiblingDirectoryIsRead | tools.py:129 | the bare prefix test reads `/srv/agent-keys/id` under root `/srv/agent`; the corrected test denies it |
| ReadFile.WithinMeansBelow | tools.py:127-129 | the corrected test admits only the root and paths separated from it by `/` |
| ReadFile.ReadFileRefinesAsWritten | tools.py:120-154 | on every path the corrected test admits, both versions answer the same |
| Registry.FirstMissing | agent.py:263 | none exactly when every parameter has an argument; otherwise a parameter without one |
| Registry.Bind | agent.py:262-263 | keyword binding succeeds exactly when the keywords are the parameter names; each parameter then receives its argument |
| Registry.TextArg | tools.py:166 | a string argument is used as it is |
| Registry.MinutesArg | tools.py:207 | `int()` of an integer is itself and keeps its text; of a boolean, 1 or 0; of a string, its parse, failing with a `ValueError` exactly when the text is no integer literal; of anything else, a `TypeError` |
| Registry.WebSearchTool | tools.py:53-115 | the search changes no store |
| Registry.ReadFileTool | tools.py:120-154 | reading changes no store |
| Registry.RememberInfoTool | tools.py:159-170 | the reminders are untouched; on failure nothing changes |
| Registry.RecallMemoryTool | tools.py:173-189 | recalling changes no store |
| Registry.SetReminderTool | tools.py:194-223 | the notes are untouched; on failure nothing changes |
| Registry.CheckRemindersTool | tools.py:226-257 | the notes are untouched |
| Registry.Tools | tools.py:262-269 | the registry holds exactly the six tool names |
| Registry.ToolsAre | tools.py:262-269 | each registered name calls its own tool |
| Registry.RememberInfoToolSaves | tools.py:159-170 | `remember_info(note=…)` saves the note stamped now and leaves the reminders |
| Registry.SetReminderToolSchedules | tools.py:194-223 | `set_reminder(message=…, minutes_from_now=n)` schedules the message n minutes ahead and leaves the notes |
| Registry.CheckRemindersToolReports | tools.py:226-257 | `check_reminders()` reports and marks what a check reports and marks |
| Registry.RecallMemoryToolRecalls | tools.py:173-189 | `recall_memory()` returns the recall text and changes nothing |
| Registry.WrongKeywordsRejected | agent.py:262-264 | keywords that are not exactly a tool's parameters raise `TypeError` and change nothing |
| Context.SystemPromptStrips | agent.py:61-118 | `SYSTEM_PROMPT.strip()` is the instruction without its surrounding newlines |
| Context.NewAgent | agent.py:123-130 | a new agent's instruction is `SYSTEM_PROMPT.strip()`, its dialogue is exactly that instruction followed by the "Conversation so far" header, and it has the given budget |
| Context.Compact | agent.py:139-153 | the instruction and budget are kept; a dialogue within budget is unchanged; a longer one becomes the instruction, the notice and its last min(4000, n) characters |
| Context.CompactKeepsInstruction | agent.py:145-153 | compaction keeps the instruction at the head of the dialogue |
| Context.CompactBounded | agent.py:139-153 | after compaction the dialogue is within budget or at most instruction + notice + 4000 characters |
| Context.CompactSettles | agent.py:139-153 | with a budget that holds the compacted form, compaction brings the dialogue within budget and a second compaction changes nothing |
| Context.DefaultBudgetSettles | agent.py:126 | the default budget of 8000 holds the compacted form of a new agent's dialogue |
| Backend.CallModel | agent.py:162-245 | compaction always happens first; a generated text comes back stripped; a failure comes back as a serialised respond action carrying the backend's apology and the error; an unknown backend gives the serialised misconfiguration notice |
| Backend.ApologyLead | agent.py:196-199 | each apology is a trimmed lead followed by one space before the error |
| Actions.RespondReplyAsWritten | agent.py:407-410 | as written, a respond action raises exactly when its content is truthy and not a string |
| Actions.NumericContentRaises | agent.py:408 | `{"action": "respond", "content": 5}` raises instead of replying |
| Actions.RespondReply | agent.py:407-410 | the corrected reply is never empty, equals the source's wherever the source does not raise, and is the raw text for a non-string content |
| Actions.Interpret | agent.py:387-449 | a tool is used exactly when the text reads as an object whose `action` is `"tool"`; a decided reply is never empty |
| Actions.MalformedFallsBackToRaw | agent.py:388-404 | unparseable text, a non-object or a missing `action`, and an unknown action each reply with the raw text, or with their own placeholder when the raw text is empty |
| Actions.BlankContentGetsPlaceholder | agent.py:407-410 | a blank content gets the empty-content placeholder |
| Actions.RespondRoundTrip | agent.py:407-410 | a respond action read back decides its stripped content |
| Actions.ToolCallRoundTrip | agent.py:418-420 | a tool action read back keeps its name and arguments |
| Actions.WireRoundTrip | agent.py:387-420 | every action read back decides what it says |
| Actions.CodecRoundTrip | agent.py:387-420 | the same through a codec that reads back what it writes |
| Planner.NoteOf | agent.py:301-303 | the saved note is never empty for a non-empty message |
| Planner.Decide | agent.py:283-341 | a chosen tool is one of the five the planner knows |
| Planner.DecideFollowsCascade | agent.py:289-341 | the planner picks a tool exactly when a rule of the ordered cascade fires, and picks the first rule's tool |
| Planner.CheckPhraseWins | agent.py:291-297 | a reminder-check phrase selects `check_reminders` with no arguments, whatever else the message says |
| Planner.RememberRule | agent.py:300-308 | a message mentioning "remember" that is not a reminder check saves the note with "remember that" removed |
| Planner.RecallPhraseShadowed | agent.py:300-311 | "what do you remember" always saves a note; the recall rule never sees it |
| Planner.NoteNeverEmpty | agent.py:300-308 | the saved note is a non-empty string |
| Planner.ReminderRuleFiresOnRemind | agent.py:327-335 | the reminder rule fires exactly on "remind" and passes the message unchanged with 5 minutes |
| Planner.NoTriggerEchoes | agent.py:337-341 | with no trigger, the planner greets and echoes the message |
| Dispatch.Invoke | agent.py:263 | falsy arguments call the tool with none, a dict is unpacked as keywords, anything else is an unpacking `TypeError` |
| Dispatch.LookupAsWritten | agent.py:256 | as written, the lookup raises exactly on an unhashable name, and finds a tool exactly for a registered string |
| Dispatch.RunToolAsWritten | agent.py:250-276 | as written, `_run_tool` raises exactly when the name is unhashable |
| Dispatch.UnhashableNameRaises | agent.py:256 | a list as tool name raises out of the turn |
| Dispatch.RunTool | agent.py:250-276 | the corrected dispatcher agrees with the source wherever the source does not raise; an unknown name leaves the state and gives the not-implemented text; a known one gives its tool's result or failure |
| Dispatch.FailuresNameTheTool | agent.py:264-271 | a returned value comes back unchanged; a failure's text names the tool and tells a `TypeError` from other errors |
| Dispatch.NonMappingArgsNeverRun | agent.py:262-266 | arguments that are neither falsy nor a dict never reach the tool |
| Chat.FollowupPrompt | agent.py:425-433 | the follow-up prompt continues the dialogue and carries the tool result |
| Chat.MockTurn | agent.py:356-371 | the offline path never calls the model and appends exactly one exchange; the reply is never empty |
| Chat.ToolTurn | agent.py:418-443 | after a tool, a second prompt continues the compacted dialogue and the dialogue is compacted again before the exchange |
| Chat.BackendTurn | agent.py:379-449 | the first prompt uses the dialogue before compaction; one model call for a direct answer, two after a tool; the dialogue is compacted before each |
| Chat.Chat | agent.py:345-449 | every turn replies with non-empty text and records exactly one exchange after the compactions it did |
| Chat.ChatKeepsInstruction | agent.py:139-449 | a turn keeps the agent's instruction, and a dialogue that starts with it still does after the turn |
| Chat.BackendTurnBounded | agent.py:385-438 | with a budget that holds the compacted form, a backend turn leaves at most the budget plus the new exchange |
| Chat.AnsweredDirectly | agent.py:387-415 | a first reply that decides a text is the turn's reply; no tool runs |
| Chat.UsedTool | agent.py:418-433 | a first reply naming a tool runs it, and the follow-up prompt carries its result |
| Chat.FollowupFailureShowsJson | agent.py:425-436 | a remote turn that uses a tool makes two model calls; when the second fails, the reply is the stripped serialised apology action itself |
| Chat.OfflineToolRun | agent.py:365-371 | offline, the planner's tool runs with its arguments and the reply reports the result |
| Chat.BackendFailureApologises | agent.py:191-200 | when the backend fails, the reply is the apology and the error, stripped, and no tool runs |
| Chat.UnrecognisedBackendReplies | agent.py:240-245 | a backend that is not mock, hf or gemini replies with the misconfiguration notice |
| Chat.FollowupAnswerIsReply | agent.py:435-436 | after a tool, a generated follow-up text is the reply once stripped, or the fixed notice when nothing is left |
| Chat.UnknownToolReported | agent.py:418-433 | an unregistered tool leaves the state alone, and the follow-up prompt reports it as not implemented |
| Chat.UnregisteredNameReported | agent.py:256-259 | a tool call whose name is not registered leaves the state alone and the follow-up prompt reports that name as not implemented |
| Chat.ToolCallDecided | agent.py:418-420 | a first reply that strips to a serialised tool call is decided as that call, with its name and arguments |
| Chat.PlannedCallsBind | agent.py:292-335 | every tool call the planner makes binds to that tool's parameters |
| Chat.CheckRemindersDispatched | agent.py:261-276 | dispatching `check_reminders` to the real registry reports and marks what a check does |
| Chat.RememberDispatched | agent.py:261-276 | dispatching `remember_info` to the real registry saves the note stamped now |
| Chat.OfflineCheckReminders | agent.py:291-297 | asking offline to check reminders reports and delivers the due reminders, leaving the notes |
| Chat.OfflineRemember | agent.py:300-308 | asking offline to remember saves exactly one note stamped now, leaving the reminders |

## Left out

- The network and the SDKs: the Hugging Face and Gemini clients are one generator parameter.
  - Gemini's fallback of joining candidate parts happens inside that parameter.
  - The model name, temperature and token limit are likewise outside.
- Configuration and startup (dotenv, missing keys), logging, the `main` loop and its exit words: I/O.
- JSON persistence of the stores (`_load_json` and `_save_json`): the stores are values passed in and returned.
  - A corrupt or missing file is therefore not modelled.
- The clock: time is an integer count of seconds.
  - `isoformat` and `strftime` are parameters, so sub-second truncation is not modelled.
  - `fromisoformat` is not modelled as a function: the parse of a stored due text is the record's field `dueAt`. Only `SetReminder` ties the two together; a store read from elsewhere may pair any text with any parse.
  - A due time that does not parse is a reminder whose `dueAt` is `None`.
  - `timedelta` overflow is not modelled.
- Path normalisation (`os.path.abspath(os.path.join(...))`) is a parameter. The separator is `/`.
- JSON numbers are integers; floats are not modelled.
- Lists and dicts are rendered through `json.dumps` where Python would use `repr`.
- The mock path's unknown-action fallback (agent.py:373-376) is not modelled: the planner only ever returns a respond action or a tool action.
- PyStr.Lower: lower-cases ASCII letters only; Python's Unicode case mapping is not modelled.
- PyStr.ParseInt: no underscores between digits and no non-ASCII digits.
- Registry.Bind: the `TypeError` texts for missing or unexpected keywords are shortened. The check itself is exact.
- Registry.TextArg: a list or dict passed where a tool formats text is refused with a `TypeError`. Python would format its `repr`.
- Registry.ReadFileTool: runs the corrected `ReadFile.ReadFile`. It therefore denies a sibling path such as `/srv/agent-keys/id` under the root `/srv/agent`, which the source reads (tools.py:129). The source's prefix test is `ReadFile.ReadFileAsWritten`.
- Chat.Chat: runs the corrected `Actions.RespondReply` and `Dispatch.RunTool`. Where the source raises out of `chat` (a non-string respond content at agent.py:408, an unhashable tool name at agent.py:256), the model replies. `Actions.RespondReplyAsWritten` and `Dispatch.RunToolAsWritten` are the as-written versions.
- Reminders.SetReminder: the confirmation shows `str()` of the argument as the caller gave it; `wall` renders the due time.

## Findings

| source | as written | input that shows it | evidently intended | confidence | as-written member | corrected member |
|---|---|---|---|---|---|---|
| agent.py:408 | `(action.get("content") or "").strip()` assumes a string content | `{"action": "respond", "content": 5}` from the backend raises `AttributeError` out of `chat` | treat a non-string content as a malformed action and reply with the raw text | not executed | Actions.NumericContentRaises | Actions.RespondReply |
| agent.py:256 | `name not in TOOLS` with a name taken from the backend's JSON | `{"action": "tool", "name": ["web_search"]}` raises `TypeError: unhashable type: 'list'` out of `chat` | report the tool as not implemented, as for any other unknown name | not executed | Dispatch.UnhashableNameRaises | Dispatch.RunTool |
| tools.py:129 | `full_path.startswith(BASE_DIR)` compares text prefixes | with the project at `/srv/agent`, `read_file("../agent-keys/id")` reads `/srv/agent-keys/id` | allow only the project folder itself and paths below it | not executed | ReadFile.SiblingDirectoryIsRead | ReadFile.ReadFile |

=== FILE: actions.dfy ===
/** The structured action a turn decides on, its JSON wire format, and how
    `chat` reads a backend's JSON reply into a decision, degrading to the
    raw text whenever the reply is not a usable action (agent.py:387-449). */
module Actions {

  import opened Options
  import opened PyStr
  import opened Json

  /** `{"action": "respond", "content": c}` or
      `{"action": "tool", "name": n, "args": {…}}`. */
  datatype Action = Respond(content: string) | ToolCall(name: string, args: map<string, Json>)

  /** The wire format of an action. */
  function Encode(a: Action): Json {
    match a
    case Respond(c) => JObj(map["action" := JStr("respond"), "content" := JStr(c)])
    case ToolCall(n, args) => JObj(map["action" := JStr("tool"), "name" := JStr(n), "args" := JObj(args)])
  }

  /** What the turn does next: reply with a text, or call the tool `name`
      (any decoded value) with `args`. */
  datatype Decision = Final(text: string) | Use(name: Json, args: Json)

  const ParseFailed := "I could not understand my own JSON output."
  const NoAction := "I produced an invalid JSON action."
  const EmptyContent := "I tried to respond, but my content was empty."
  const UnknownAction := "I produced an unknown action type."

  /** Python's `text or fallback` on strings. */
  function OrElse(text: string, fallback: string): (r: string)
    ensures |fallback| > 0 ==> |r| > 0
    ensures text != "" ==> r == text
  {
    if text == "" then fallback else text
  }

  /** `action.get("content") or ""`: the content when present and truthy. */
  function ContentOf(fields: map<string, Json>): Json {
    GetOr(fields, "content", JStr(""))
  }

  /** `(action.get("content") or "").strip()` and the empty-content
      placeholder, as written: a truthy content that is not a string has no
      `strip` and raises `AttributeError`. */
  function RespondReplyAsWritten(fields: map<string, Json>): (r: Result<string>)
    ensures r.Raises? <==> !ContentOf(fields).JStr?
  {
    var content := ContentOf(fields);
    if content.JStr? then Ok(OrElse(Strip(content.s), EmptyContent))
    else Raises("AttributeError: '" + TypeName(content) + "' object has no attribute 'strip'")
  }

  /** A `content` of `5` makes the turn raise instead of replying. */
  lemma NumericContentRaises()
    ensures RespondReplyAsWritten(map["action" := JStr("respond"), "content" := JNum(5)]).Raises?
  {
  }

  /** The reply of a `respond` action, with a non-string content treated
      as malformed output: the turn degrades to the raw text, as for every
      other malformed reply. It agrees with the source wherever the source
      does not raise, and it is never empty. */
  function RespondReply(fields: map<string, Json>, raw: string): (r: string)
    ensures |r| > 0
    ensures RespondReplyAsWritten(fields).Ok? ==> r == RespondReplyAsWritten(fields).value
    ensures !ContentOf(fields).JStr? ==> r == OrElse(raw, NoAction)
  {
    var content := ContentOf(fields);
    if content.JStr? then OrElse(Strip(content.s), EmptyContent) else OrElse(raw, NoAction)
  }

  /** The backend-driven planner's reading of the reply `raw`, once
      `json.loads` has given `parsed`. */
  function Interpret(parsed: Parsed, raw: string): (d: Decision)
    ensures d.Final? ==> |d.text| > 0
    ensures d.Use? <==> parsed.Value? && parsed.v.JObj? && "action" in parsed.v.fields
                        && parsed.v.fields["action"] == JStr("tool")
  {
    match parsed
    case Invalid => Final(OrElse(raw, ParseFailed))
    case Value(v) =>
      if !v.JObj? || "action" !in v.fields then Final(OrElse(raw, NoAction))
      else if v.fields["action"] == JStr("respond") then Final(RespondReply(v.fields, raw))
      else if v.fields["action"] == JStr("tool") then
        Use(Get(v.fields, "name").GetOr(JNull), GetOr(v.fields, "args", JObj(map[])))
      else Final(OrElse(raw, UnknownAction))
  }

  /** The reply is the raw text in three cases: the text is not JSON, it
      is not an object with an `action` key, or its action is neither
      `respond` nor `tool`. An empty raw text gives each case's own
      placeholder instead. */
  lemma MalformedFallsBackToRaw(parsed: Parsed, raw: string)
    ensures parsed.Invalid? ==> Interpret(parsed, raw) == Final(OrElse(raw, ParseFailed))
    ensures parsed.Value? && (!parsed.v.JObj? || "action" !in parsed.v.fields) ==>
              Interpret(parsed, raw) == Final(OrElse(raw, NoAction))
    ensures parsed.Value? && parsed.v.JObj? && "action" in parsed.v.fields
            && parsed.v.fields["action"] != JStr("respond") && parsed.v.fields["action"] != JStr("tool") ==>
              Interpret(parsed, raw) == Final(OrElse(raw, UnknownAction))
    ensures raw != "" && (|| parsed.Invalid?
                          || !parsed.v.JObj? || "action" !in parsed.v.fields
                          || (parsed.v.fields["action"] != JStr("respond")
                              && parsed.v.fields["action"] != JStr("tool"))) ==>
              Interpret(parsed, raw) == Final(raw)
  {
  }

  /** A respond action whose content is empty or only whitespace gets the
      empty-content placeholder. */
  lemma BlankContentGetsPlaceholder(content: string, raw: string)
    requires forall i | 0 <= i < |content| :: IsSpace(content[i])
    ensures Interpret(Value(Encode(Respond(content))), raw) == Final(EmptyContent)
  {
    var fields := Encode(Respond(content)).fields;
    if content != "" {
      assert GetOr(fields, "content", JStr("")) == JStr(content);
    }
  }

  /** What a well-formed action decides. */
  function Decided(a: Action): Decision {
    match a
    case Respond(c) => Final(OrElse(Strip(c), EmptyContent))
    case ToolCall(n, args) => Use(JStr(n), JObj(args))
  }

  lemma RespondRoundTrip(c: string, raw: string)
    ensures Interpret(Value(Encode(Respond(c))), raw) == Decided(Respond(c))
  {
    var fields := Encode(Respond(c)).fields;
    assert fields["action"] == JStr("respond");
    if c == "" {
      assert ContentOf(fields) == JStr("");
    } else {
      assert ContentOf(fields) == JStr(c);
    }
  }

  lemma ToolCallRoundTrip(n: string, args: map<string, Json>, raw: string)
    ensures Interpret(Value(Encode(ToolCall(n, args))), raw) == Decided(ToolCall(n, args))
  {
    var fields := Encode(ToolCall(n, args)).fields;
    assert fields["action"] == JStr("tool") != JStr("respond");
    assert Get(fields, "name") == Some(JStr(n));
    if args == map[] {
      assert GetOr(fields, "args", JObj(map[])) == JObj(args);
    } else {
      assert Truthy(JObj(args));
    }
  }

  /** An action written in the wire format and read back by `chat`
      decides what the action says: a tool call keeps its name and its
      arguments, and a respond action keeps its content. */
  lemma WireRoundTrip(a: Action, raw: string)
    ensures Interpret(Value(Encode(a)), raw) == Decided(a)
  {
    match a
    case Respond(c) => RespondRoundTrip(c, raw);
    case ToolCall(n, args) => ToolCallRoundTrip(n, args, raw);
  }

  /** The same holds through a codec that reads back what it writes. */
  lemma CodecRoundTrip(c: Codec, a: Action)
    requires Lawful(c)
    ensures var raw := c.dumps(Encode(a));
            Interpret(c.loads(raw), raw) == Decided(a)
  {
    WireRoundTrip(a, c.dumps(Encode(a)));
  }
}

=== FILE: backend.dfy ===
/** The backend adapter `_call_model` (agent.py:162-246). The remote text
    generator is supplied from outside; every failure it reports is turned
    into the text of a serialised `respond` action. */
module Backend {

  import opened PyStr
  import opened Json
  import opened Context

  /** The configured `LLM_BACKEND`. */
  datatype Kind = Mock | HuggingFace | Gemini | Unrecognised(name: string)

  /** What one request to the remote generator yields: its text (an empty
      text when the service returned none), or the failure's description. */
  datatype Reply = Generated(text: string) | Failed(detail: string)

  /** The apologies, each followed by a space and then the error text;
      first and last words are kept apart for `ApologyLead`. */
  const HfLead := "I" + " couldn't reach the Hugging Face model due to an error.\n\nTechnical" + " details:"
  const GeminiLead :=
    "I" + " couldn't reach the Gemini API because of a quota or network error.\n\nTechnical" + " details:"
  const HfApology := HfLead + " "
  const GeminiApology := GeminiLead + " "
  /** The reply for an unknown backend; first and last words are kept
      apart for `MisconfiguredTrimmed`. */
  const Misconfigured :=
    "LLM" + " backend is misconfigured. Please set LLM_BACKEND to 'mock', 'hf' or 'gemini' in" + " .env."

  predicate Remote(k: Kind) {
    k.HuggingFace? || k.Gemini?
  }

  /** The apology that introduces a remote backend's error description. */
  function Apology(k: Kind): string {
    if k.Gemini? then GeminiApology else HfApology
  }

  /** The apology without its trailing space. */
  function ApologyLead(k: Kind): (p: string)
    ensures Apology(k) == p + " "
    ensures |p| > 0 && !IsSpace(p[0]) && !IsSpace(p[|p| - 1])
  {
    if k.Gemini? then GeminiLead else HfLead
  }

  lemma MisconfiguredTrimmed()
    ensures Strip(Misconfigured) == Misconfigured
  {
    StripTrimmed(Misconfigured);
  }

  /** The `{"action": "respond", "content": …}` object. */
  function RespondObject(content: string): Json {
    JObj(map["action" := JStr("respond"), "content" := JStr(content)])
  }

  /** The text `_call_model` returns, and the agent with its dialogue as
      compaction left it. */
  datatype Called = Called(text: string, agent: Agent)

  /** `_call_model(prompt)`: compacts the dialogue first, then asks the
      remote generator. Nothing escapes: a generated text comes back
      stripped; a failure comes back as a serialised respond action whose
      content is the apology followed by the error; a backend that is not
      remote yields the serialised misconfiguration notice. */
  function CallModel(a: Agent, kind: Kind, generate: string -> Reply, codec: Codec, prompt: string): (r: Called)
    ensures r.agent == Compact(a)
    ensures Remote(kind) && generate(prompt).Generated? ==> r.text == Strip(generate(prompt).text)
    ensures Remote(kind) && generate(prompt).Failed? ==>
              r.text == codec.dumps(RespondObject(Apology(kind) + generate(prompt).detail))
    ensures !Remote(kind) ==> r.text == codec.dumps(RespondObject(Misconfigured))
  {
    var compacted := Compact(a);
    if Remote(kind) then
      match generate(prompt)
      case Generated(t) => Called(Strip(t), compacted)
      case Failed(e) => Called(codec.dumps(RespondObject(Apology(kind) + e)), compacted)
    else Called(codec.dumps(RespondObject(Misconfigured)), compacted)
  }
}

=== FILE: chat.dfy ===
/** One turn of the agent loop, `chat` (agent.py:345-449): the offline
    planner path, and the backend path that asks the model for a JSON
    action, runs a tool when asked, and asks the model again for the final
    answer. The generator, the codec and the tools are supplied by the
    environment; the tools act on a state `W`. */
module Chat {

  import opened Options
  import opened PyStr
  import opened Json
  import opened ToolCalls
  import opened Context
  import opened Backend
  import opened Actions
  import opened Planner
  import opened Dispatch
  import Registry
  import Notes
  import Reminders

  /** The configured backend, the remote generator, the JSON codec and
      the tool registry. */
  datatype Env<!W> = Env(kind: Kind, generate: string -> Reply, codec: Codec, tools: map<string, Tool<W>>)

  /** The reply of a turn, the agent and tool state after it, and the
      prompts sent to the model, in order. */
  datatype Turn<W> = Turn(reply: string, agent: Agent, world: W, prompts: seq<string>)

  const JsonCue := "Assistant (reply ONLY in JSON as specified above):"
  const ToolNote := "Assistant decided to call a tool.\n"
  const AnswerCue := "Now Assistant, give the final, user-friendly answer (no JSON, just text):"
  const NoFinalAnswer := "I used a tool but couldn't form a response."
  const MockToolLead := "(Mock mode) I used tool '"

  /** The record of one exchange appended to the dialogue. */
  function Exchange(m: string, reply: string): string {
    "User: " + m + "\nAssistant: " + reply + "\n"
  }

  /** The prompt asking for a JSON action. */
  function FirstPrompt(dialogue: string, m: string): string {
    dialogue + "User: " + m + "\n" + JsonCue
  }

  /** The prompt asking for the final answer once the tool has run. It
      continues the dialogue and carries the tool's result. */
  function FollowupPrompt(dialogue: string, m: string, nameText: string, argsText: string, result: string): (p: string)
    ensures StartsWith(p, dialogue)
    ensures Contains(p, "Tool result: " + result + "\n\n")
  {
    var head := "User: " + m + "\n" + ToolNote
                + "Tool name: " + nameText + "\n"
                + "Tool args: " + argsText + "\n";
    var shown := "Tool result: " + result + "\n\n";
    assert (dialogue + head + shown + AnswerCue)[..|dialogue|] == dialogue;
    ContainsSelf(shown);
    ContainsWithin(dialogue + head, shown, AnswerCue, shown);
    dialogue + head + shown + AnswerCue
  }

  /** The agent with one exchange appended to its dialogue. */
  function Record(a: Agent, m: string, reply: string): (r: Agent)
    ensures r.instruction == a.instruction && r.maxChars == a.maxChars
    ensures StartsWith(r.dialogue, a.dialogue)
  {
    a.(dialogue := a.dialogue + Exchange(m, reply))
  }

  /** The reply to a tool the planner ran offline. */
  function MockToolReply(name: string, result: string): string {
    MockToolLead + name + "' and got this result:\n\n" + result
  }

  /** The offline path: the planner decides; nothing is compacted and no
      model is asked. */
  function MockTurn<W>(a: Agent, env: Env<W>, w: W, m: string): (r: Turn<W>)
    ensures |r.reply| > 0 && r.prompts == []
    ensures r.agent == Record(a, m, r.reply)
  {
    match Decide(m)
    case Respond(c) =>
      var reply := OrElse(Strip(c), EmptyContent);
      Turn(reply, Record(a, m, reply), w, [])
    case ToolCall(n, args) =>
      var d := RunTool(env.tools, env.codec, JStr(n), JObj(args), w);
      var reply := MockToolReply(n, d.text);
      Turn(reply, Record(a, m, reply), d.world, [])
  }

  /** The second half of the backend path: run the tool the model chose,
      then ask the model, from the agent `a` the first call left, for the
      final answer. */
  function ToolTurn<W>(a: Agent, env: Env<W>, w: W, m: string, prompt: string, name: Json, args: Json): (r: Turn<W>)
    ensures |r.reply| > 0 && |r.prompts| == 2 && r.prompts[0] == prompt
    ensures StartsWith(r.prompts[1], a.dialogue) && r.agent == Record(Compact(a), m, r.reply)
  {
    var d := RunTool(env.tools, env.codec, name, args, w);
    var followup := FollowupPrompt(a.dialogue, m, Text(name, env.codec), env.codec.dumpsUnicode(args), d.text);
    var second := CallModel(a, env.kind, env.generate, env.codec, followup);
    var reply := OrElse(Strip(second.text), NoFinalAnswer);
    Turn(reply, Record(second.agent, m, reply), d.world, [prompt, followup])
  }

  /** The backend path. The first prompt is built from the dialogue before
      compaction; the follow-up prompt from the dialogue as the first
      model call left it. */
  function BackendTurn<W>(a: Agent, env: Env<W>, w: W, m: string): (r: Turn<W>)
    ensures |r.reply| > 0
    ensures 1 <= |r.prompts| <= 2 && r.prompts[0] == FirstPrompt(a.dialogue, m)
    ensures |r.prompts| == 1 ==> r.agent == Record(Compact(a), m, r.reply) && r.world == w
    ensures |r.prompts| == 2 ==> StartsWith(r.prompts[1], Compact(a).dialogue)
                                 && r.agent == Record(Compact(Compact(a)), m, r.reply)
  {
    var prompt := FirstPrompt(a.dialogue, m);
    var first := CallModel(a, env.kind, env.generate, env.codec, prompt);
    var raw := first.text;
    match Interpret(env.codec.loads(raw), raw)
    case Final(t) => Turn(t, Record(first.agent, m, t), w, [prompt])
    case Use(name, args) => ToolTurn(first.agent, env, w, m, prompt, name, args)
  }

  /** `chat(m)`. Every turn ends in a non-empty reply and records exactly
      one exchange. */
  function Chat<W>(a: Agent, env: Env<W>, w: W, m: string): (r: Turn<W>)
    ensures |r.reply| > 0 && r.agent.instruction == a.instruction && r.agent.maxChars == a.maxChars
    ensures env.kind.Mock? ==> r.prompts == [] && r.agent.dialogue == a.dialogue + Exchange(m, r.reply)
    ensures !env.kind.Mock? ==> 1 <= |r.prompts| <= 2 && r.prompts[0] == FirstPrompt(a.dialogue, m)
    ensures !env.kind.Mock? && |r.prompts| == 1 ==>
              r.agent.dialogue == Compact(a).dialogue + Exchange(m, r.reply) && r.world == w
    ensures !env.kind.Mock? && |r.prompts| == 2 ==>
              StartsWith(r.prompts[1], Compact(a).dialogue)
              && r.agent.dialogue == Compact(Compact(a)).dialogue + Exchange(m, r.reply)
  {
    if env.kind.Mock? then MockTurn(a, env, w, m) else BackendTurn(a, env, w, m)
  }

  // ---------------------------------------------------------------------
  // The dialogue across turns

  lemma PrefixExtends(x: string, y: string, p: string)
    requires StartsWith(x, p)
    ensures StartsWith(x + y, p)
  {
    assert (x + y)[..|p|] == x[..|p|];
  }

  /** A dialogue that starts with the agent's instruction still does after
      any turn, whichever path the turn takes and however often the
      dialogue was compacted. */
  lemma ChatKeepsInstruction<W>(a: Agent, env: Env<W>, w: W, m: string)
    requires StartsWith(a.dialogue, a.instruction)
    ensures Chat(a, env, w, m).agent.instruction == a.instruction
    ensures StartsWith(Chat(a, env, w, m).agent.dialogue, a.instruction)
  {
    var r := Chat(a, env, w, m);
    CompactKeepsInstruction(a);
    CompactKeepsInstruction(Compact(a));
    if env.kind.Mock? {
      PrefixExtends(a.dialogue, Exchange(m, r.reply), a.instruction);
    } else if |r.prompts| == 1 {
      PrefixExtends(Compact(a).dialogue, Exchange(m, r.reply), a.instruction);
    } else {
      PrefixExtends(Compact(Compact(a)).dialogue, Exchange(m, r.reply), a.instruction);
    }
  }

  /** With a budget that holds the compacted form, a backend turn leaves
      at most the budget plus the exchange it records. */
  lemma BackendTurnBounded<W>(a: Agent, env: Env<W>, w: W, m: string)
    requires !env.kind.Mock?
    requires a.maxChars >= |a.instruction| + |CompactionNotice| + KeptChars
    ensures var r := Chat(a, env, w, m);
            |r.agent.dialogue| <= a.maxChars + |Exchange(m, r.reply)|
  {
    CompactSettles(a);
  }

  // ---------------------------------------------------------------------
  // Backend scenarios

  /** The reply the first model call's text decides on, when it decides
      on one. */
  function FirstDecision<W>(a: Agent, env: Env<W>, m: string): Decision {
    var raw := CallModel(a, env.kind, env.generate, env.codec, FirstPrompt(a.dialogue, m)).text;
    Interpret(env.codec.loads(raw), raw)
  }

  /** A backend turn whose first reply decides on a text replies with it,
      runs no tool and asks the model once. */
  lemma AnsweredDirectly<W>(a: Agent, env: Env<W>, w: W, m: string)
    requires !env.kind.Mock? && FirstDecision(a, env, m).Final?
    ensures var r := Chat(a, env, w, m);
            r.reply == FirstDecision(a, env, m).text && r.world == w && |r.prompts| == 1
  {
  }

  /** A backend turn whose first reply asks for a tool runs it and sends
      its result in the follow-up prompt. */
  lemma UsedTool<W>(a: Agent, env: Env<W>, w: W, m: string)
    requires !env.kind.Mock? && FirstDecision(a, env, m).Use?
    ensures var dec := FirstDecision(a, env, m);
            var d := RunTool(env.tools, env.codec, dec.name, dec.args, w);
            var r := Chat(a, env, w, m);
            && r.world == d.world && |r.prompts| == 2
            && Contains(r.prompts[1], "Tool result: " + d.text + "\n\n")
  {
  }

  /** When the follow-up model call fails, the serialised `respond` action
      that `_call_model` returns in place of a text is itself the reply:
      the user sees the JSON, not the apology inside it. */
  lemma FollowupFailureShowsJson<W>(a: Agent, env: Env<W>, w: W, m: string)
    requires Remote(env.kind) && FirstDecision(a, env, m).Use?
    ensures var r := Chat(a, env, w, m);
            && |r.prompts| == 2
            && (env.generate(r.prompts[1]).Failed? ==>
                  var raw := env.codec.dumps(RespondObject(Apology(env.kind) + env.generate(r.prompts[1]).detail));
                  Strip(raw) != [] ==> r.reply == Strip(raw))
  {
    UsedTool(a, env, w, m);
  }

  /** When the follow-up model call generates a text, the turn's reply is
      that text stripped, or the fixed notice when nothing is left. */
  lemma FollowupAnswerIsReply<W>(a: Agent, env: Env<W>, w: W, m: string)
    requires Remote(env.kind) && FirstDecision(a, env, m).Use?
    ensures var r := Chat(a, env, w, m);
            && |r.prompts| == 2
            && (env.generate(r.prompts[1]).Generated? ==>
                  r.reply == OrElse(Strip(env.generate(r.prompts[1]).text), NoFinalAnswer))
  {
    UsedTool(a, env, w, m);
    var r := Chat(a, env, w, m);
    if env.generate(r.prompts[1]).Generated? {
      StripIdempotent(env.generate(r.prompts[1]).text);
    }
  }

  /** An offline turn whose planner chooses a tool runs it with the
      planner's arguments and reports its text. */
  lemma OfflineToolRun<W>(a: Agent, env: Env<W>, w: W, m: string)
    requires env.kind.Mock? && Decide(m).ToolCall?
    ensures var act := Decide(m);
            var d := RunTool(env.tools, env.codec, JStr(act.name), JObj(act.args), w);
            var r := Chat(a, env, w, m);
            r.reply == MockToolReply(act.name, d.text) && r.world == d.world
  {
  }

  lemma ApologyWithError(k: Kind, e: string)
    ensures Apology(k) + e == ApologyLead(k) + (" " + e)
  {
    var lead := ApologyLead(k);
    assert (lead + " ") + e == lead + (" " + e);
  }

  /** When the remote backend fails on the first prompt, the turn replies
      with the apology and the error, runs no tool and asks nothing more. */
  lemma BackendFailureApologises<W>(a: Agent, env: Env<W>, w: W, m: string, e: string)
    requires Remote(env.kind) && Lawful(env.codec)
    requires env.generate(FirstPrompt(a.dialogue, m)) == Failed(e)
    ensures var r := Chat(a, env, w, m);
            && r.reply == Strip(Apology(env.kind) + e)
            && StartsWith(r.reply, ApologyLead(env.kind))
            && r.world == w && |r.prompts| == 1
  {
    var content := Apology(env.kind) + e;
    var lead := ApologyLead(env.kind);
    assert StartsWith(Strip(content), lead) by {
      ApologyWithError(env.kind, e);
      StripKeepsHead(lead, " " + e);
    }
    assert FirstDecision(a, env, m) == Final(Strip(content)) by {
      var raw := env.codec.dumps(RespondObject(content));
      assert CallModel(a, env.kind, env.generate, env.codec, FirstPrompt(a.dialogue, m)).text == raw;
      assert RespondObject(content) == Encode(Respond(content));
      assert env.codec.loads(raw) == Value(Encode(Respond(content)));
      RespondRoundTrip(content, raw);
    }
    AnsweredDirectly(a, env, w, m);
  }

  /** A backend name other than mock, hf or gemini makes every turn reply
      with the misconfiguration notice. */
  lemma UnrecognisedBackendReplies<W>(a: Agent, env: Env<W>, w: W, m: string)
    requires env.kind.Unrecognised? && Lawful(env.codec)
    ensures var r := Chat(a, env, w, m);
            r.reply == Misconfigured && r.world == w && |r.prompts| == 1
  {
    assert FirstDecision(a, env, m) == Final(Misconfigured) by {
      var raw := env.codec.dumps(RespondObject(Misconfigured));
      assert CallModel(a, env.kind, env.generate, env.codec, FirstPrompt(a.dialogue, m)).text == raw;
      assert RespondObject(Misconfigured) == Encode(Respond(Misconfigured));
      assert env.codec.loads(raw) == Value(Encode(Respond(Misconfigured)));
      RespondRoundTrip(Misconfigured, raw);
      MisconfiguredTrimmed();
    }
    AnsweredDirectly(a, env, w, m);
  }

  /** A tool call naming a tool the registry does not hold leaves the tool
      state alone, and the follow-up prompt tells the model so. */
  lemma UnknownToolReported<W>(a: Agent, env: Env<W>, w: W, m: string, n: string, args: map<string, Json>, t: string)
    requires Remote(env.kind) && Lawful(env.codec) && n !in env.tools
    requires env.generate(FirstPrompt(a.dialogue, m)) == Generated(t)
    requires Strip(t) == env.codec.dumps(Encode(ToolCall(n, args)))
    ensures var r := Chat(a, env, w, m);
            r.world == w && |r.prompts| == 2
            && Contains(r.prompts[1], "Tool result: " + NotImplemented(n) + "\n\n")
  {
    ToolCallDecided(a, env, m, n, args, t);
    var name := FirstDecision(a, env, m).name;
    assert name == JStr(n) && Text(name, env.codec) == n;
    UnregisteredNameReported(a, env, w, m);
  }

  /** A tool call whose name is not a registered one leaves the tool state
      alone and reports the name as not implemented. */
  lemma UnregisteredNameReported<W>(a: Agent, env: Env<W>, w: W, m: string)
    requires !env.kind.Mock? && FirstDecision(a, env, m).Use?
    requires var name := FirstDecision(a, env, m).name; !(name.JStr? && name.s in env.tools)
    ensures var r := Chat(a, env, w, m);
            r.world == w && |r.prompts| == 2
            && Contains(r.prompts[1], "Tool result: " + NotImplemented(Text(FirstDecision(a, env, m).name, env.codec)) + "\n\n")
  {
    UsedTool(a, env, w, m);
  }

  /** A first reply that strips to a serialised tool call is decided as
      that call. */
  lemma ToolCallDecided<W>(a: Agent, env: Env<W>, m: string, n: string, args: map<string, Json>, t: string)
    requires Remote(env.kind) && Lawful(env.codec)
    requires env.generate(FirstPrompt(a.dialogue, m)) == Generated(t)
    requires Strip(t) == env.codec.dumps(Encode(ToolCall(n, args)))
    ensures FirstDecision(a, env, m) == Use(JStr(n), JObj(args))
  {
    var raw := Strip(t);
    assert CallModel(a, env.kind, env.generate, env.codec, FirstPrompt(a.dialogue, m)).text == raw;
    ToolCallRoundTrip(n, args, raw);
  }

  // ---------------------------------------------------------------------
  // The offline planner against the real registry

  /** The environment of the offline path over the real tools. */
  function OfflineEnv(host: Registry.Host, generate: string -> Reply, codec: Codec): Env<Registry.Stores> {
    Env(Mock, generate, codec, Registry.Tools(host))
  }

  /** Every tool call the planner makes binds to the tool's parameters. */
  lemma PlannedCallsBind(m: string)
    requires Decide(m).ToolCall?
    ensures var a := Decide(m);
            var call := if a.args == map[] then NoArgs else Kwargs(a.args);
            Registry.Bind(a.name, Registry.Params(a.name), call).Bound?
  {
    var a := Decide(m);
    var ps := Registry.Params(a.name);
    var kw := a.args;
    assert (set p | p in ps) == kw.Keys;
  }

  /** Dispatching `check_reminders` with no arguments to the real
      registry reports and marks the due reminders. */
  lemma CheckRemindersDispatched(host: Registry.Host, codec: Codec, s: Registry.Stores)
    ensures var checked := Reminders.CheckReminders(s.reminders, host.now);
            RunTool(Registry.Tools(host), codec, JStr("check_reminders"), JObj(map[]), s)
            == Dispatched(checked.report, s.(reminders := checked.reminders))
  {
    Registry.ToolsAre(host, NoArgs, s);
    Registry.CheckRemindersToolReports(host, s);
    var tool := Registry.Tools(host)["check_reminders"];
    assert Invoke(tool, "check_reminders", JObj(map[]), s) == tool(NoArgs, s);
  }

  /** Dispatching `remember_info` with a note to the real registry saves
      the note stamped now. */
  lemma RememberDispatched(host: Registry.Host, codec: Codec, s: Registry.Stores, note: string)
    ensures RunTool(Registry.Tools(host), codec, JStr("remember_info"), JObj(map["note" := JStr(note)]), s).world
            == s.(notes := s.notes + [Notes.Note(host.iso(host.now), note)])
  {
    var kw := map["note" := JStr(note)];
    Registry.ToolsAre(host, Kwargs(kw), s);
    Registry.RememberInfoToolSaves(host, s, note);
    var tool := Registry.Tools(host)["remember_info"];
    assert Truthy(JObj(kw));
    assert Invoke(tool, "remember_info", JObj(kw), s) == tool(Kwargs(kw), s);
  }

  /** Asking to check reminders offline reports what `check_reminders`
      reports and marks the due reminders delivered; the notes are
      untouched. */
  lemma OfflineCheckReminders(a: Agent, host: Registry.Host, generate: string -> Reply, codec: Codec,
                              s: Registry.Stores, m: string)
    requires AnyOf(Lower(m), CheckTriggers)
    ensures var r := Chat(a, OfflineEnv(host, generate, codec), s, m);
            var checked := Reminders.CheckReminders(s.reminders, host.now);
            && r.reply == MockToolReply("check_reminders", checked.report)
            && r.world == s.(reminders := checked.reminders)
  {
    CheckPhraseWins(m);
    OfflineToolRun(a, OfflineEnv(host, generate, codec), s, m);
    CheckRemindersDispatched(host, codec, s);
  }

  /** Telling the agent to remember something offline saves one note,
      stamped with the current time, and changes nothing else. */
  lemma OfflineRemember(a: Agent, host: Registry.Host, generate: string -> Reply, codec: Codec,
                        s: Registry.Stores, m: string)
    requires Contains(Lower(m), "remember") && !AnyOf(Lower(m), CheckTriggers)
    ensures var r := Chat(a, OfflineEnv(host, generate, codec), s, m);
            && r.world.notes == s.notes + [Notes.Note(host.iso(host.now), NoteOf(m))]
            && r.world.reminders == s.reminders
  {
    RememberRule(m);
    OfflineToolRun(a, OfflineEnv(host, generate, codec), s, m);
    RememberDispatched(host, codec, s, NoteOf(m));
  }
}

=== FILE: context.dfy ===
/** The agent's conversation state: the system prompt, the dialogue text
    it keeps between turns, and context compaction (agent.py:61-158). */
module Context {

  import opened PyStr

  /** The first line of the system prompt; its first word is kept apart
      for `SystemPromptStrips`. */
  const Opening := "You" + " are Jarvis, an AI concierge agent helping a developer named Madhu."

  /** The schema, tool list and rules between the first and last lines. */
  const Instructions := @"

You are powered by an LLM backend (Gemini or Hugging Face) and you must ALWAYS produce
your primary reasoning output in pure JSON following this schema:

1) To answer the user directly (no tools):
{
  ""action"": ""respond"",
  ""content"": ""<your natural language reply to the user>""
}

2) To call a tool:
{
  ""action"": ""tool"",
  ""name"": ""<tool_name>"",
  ""args"": { ... }
}

Available tools and their arguments:

1) web_search
   - description: Search the web for recent or dynamic information.
   - args: { ""query"": ""search text"" }

2) read_file
   - description: Read a small text file from the local project folder.
   - args: { ""path"": ""relative/path/to/file.txt"" }

3) remember_info
   - description: Save an important note to long-term memory.
   - args: { ""note"": ""text to remember"" }

4) recall_memory
   - description: Show previously saved notes from long-term memory.
   - args: { }

5) set_reminder
   - description: Create a reminder N minutes from now.
   - args: { ""message"": ""reminder text"", ""minutes_from_now"": 10 }

6) check_reminders
   - description: Check which reminders are due now.
   - args: { }

Rules:
- If the user asks for current or changing information, strongly consider using web_search.
- Use remember_info when the user explicitly says to remember something.
- Use recall_memory when the user wants to recall past notes.
- Use set_reminder/check_reminders for reminder workflows.
- If a tool is not needed, use ""action"": ""respond"".

Context Engineering:
- The system may compact older parts of the conversation to keep only the most relevant
  recent turns. When this happens, you still respond normally, assuming a short summary
  of prior context is sufficient.

"

  /** The last line of the system prompt. */
  const Closing := "Return ONLY valid JSON when asked to follow the JSON schema above."

  /** `SYSTEM_PROMPT.strip()`: the instruction every dialogue begins with. */
  const SystemInstruction := Opening + Instructions + Closing

  /** `SYSTEM_PROMPT` as declared, between a leading and a trailing newline. */
  const SystemPrompt := "\n" + SystemInstruction + "\n"

  /** What follows the instruction in a fresh dialogue. */
  const DialogueStart := "\n\nConversation so far:\n"

  /** The inserted notice that older turns were dropped. */
  const CompactionNotice :=
    "\n\n[Older conversation compacted for brevity. Only the most recent turns are kept here.]\n\n"

  /** How many trailing characters compaction keeps. */
  const KeptChars := 4000

  /** The default dialogue budget, `max_dialogue_chars`. */
  const DefaultMaxChars := 8000

  /** The agent's state: the instruction it was built with, which
      compaction puts back at the head of the dialogue; the dialogue text;
      and its budget. */
  datatype Agent = Agent(instruction: string, dialogue: string, maxChars: int)

  lemma SystemPromptStrips()
    ensures Strip(SystemPrompt) == SystemInstruction
  {
    var si := SystemInstruction;
    assert si[0] == Opening[0] == 'Y';
    assert si[|si| - 1] == Closing[|Closing| - 1] == '.';
    StripSurrounded(si, '\n', '\n');
    assert "\n" == ['\n'];
  }

  /** A new agent: its instruction is the stripped system prompt, and its
      dialogue is that instruction followed by the dialogue header. */
  function NewAgent(maxChars: int): (a: Agent)
    ensures a.instruction == SystemInstruction && a.maxChars == maxChars
    ensures StartsWith(a.dialogue, a.instruction)
    ensures a.dialogue == a.instruction + DialogueStart
  {
    SystemPromptStrips();
    var d := Strip(SystemPrompt) + DialogueStart;
    assert d[..|SystemInstruction|] == SystemInstruction;
    Agent(SystemInstruction, d, maxChars)
  }

  /** How many characters compaction keeps from a dialogue of length `n`. */
  function KeptFrom(n: nat): nat {
    if n < KeptChars then n else KeptChars
  }

  /** `_compact_context`. A dialogue within budget is left alone; a longer
      one becomes the instruction, the notice and the last 4000 characters
      (Python's `dialogue[-4000:]`) of the old dialogue. */
  function Compact(a: Agent): (c: Agent)
    ensures c.instruction == a.instruction && c.maxChars == a.maxChars
    ensures |a.dialogue| <= a.maxChars ==> c == a
    ensures |a.dialogue| > a.maxChars ==>
              var head := a.instruction + CompactionNotice;
              var n := KeptFrom(|a.dialogue|);
              && StartsWith(c.dialogue, head)
              && |c.dialogue| == |head| + n
              && c.dialogue[|head|..] == a.dialogue[|a.dialogue| - n..]
  {
    if |a.dialogue| <= a.maxChars then a
    else
      var head := a.instruction + CompactionNotice;
      var tail := Slice(a.dialogue, -KeptChars, |a.dialogue|);
      var d := head + tail;
      assert d[..|head|] == head && d[|head|..] == tail;
      a.(dialogue := d)
  }

  /** Compaction never drops the instruction, however often it runs. */
  lemma CompactKeepsInstruction(a: Agent)
    requires StartsWith(a.dialogue, a.instruction)
    ensures StartsWith(Compact(a).dialogue, a.instruction)
  {
    if |a.dialogue| > a.maxChars {
      var head := a.instruction + CompactionNotice;
      var d := Compact(a).dialogue;
      assert d[..|a.instruction|] == d[..|head|][..|a.instruction|] == head[..|a.instruction|];
    }
  }

  /** After compaction the dialogue is within the budget or at most the
      instruction, the notice and 4000 characters long. */
  lemma CompactBounded(a: Agent)
    ensures var n := |Compact(a).dialogue|;
            n <= a.maxChars || n <= |a.instruction| + |CompactionNotice| + KeptChars
  {
  }

  /** With a budget that holds the compacted form, compaction settles: one
      compaction brings the dialogue within budget, and another changes
      nothing. */
  lemma CompactSettles(a: Agent)
    requires a.maxChars >= |a.instruction| + |CompactionNotice| + KeptChars
    ensures |Compact(a).dialogue| <= a.maxChars
    ensures Compact(Compact(a)) == Compact(a)
  {
  }

  /** The default budget of 8000 characters holds the compacted form of a
      new agent's dialogue. */
  lemma DefaultBudgetSettles()
    ensures var a := NewAgent(DefaultMaxChars);
            a.maxChars >= |a.instruction| + |CompactionNotice| + KeptChars
  {
  }
}

=== FILE: dispatch.dfy ===
/** The tool dispatcher `_run_tool` (agent.py:249-276): looks the name up
    in the registry, calls the tool with the arguments as keywords, and
    turns whatever happens into text. The tools are generic over the state
    `W` they act on. */
module Dispatch {

  import opened Options
  import opened PyStr
  import opened Json
  import opened ToolCalls

  /** The reply for a name the registry does not hold. */
  function NotImplemented(nameText: string): string {
    "Error: tool '" + nameText + "' is not implemented."
  }

  /** The text of a tool call's outcome. */
  function Render(name: string, o: ToolOutcome): string {
    match o
    case Returned(v) => v
    case TypeErr(m) => "Error calling tool '" + name + "': " + m
    case OtherErr(m) => "Tool '" + name + "' raised an error: " + m
  }

  /** The `TypeError` of `func(**args)` when `args` is not a mapping. */
  function NotAMapping(name: string, args: Json): string {
    name + "() argument after ** must be a mapping, not " + TypeName(args)
  }

  /** How the registered tool `name` is called with `args`: `func()` when
      the arguments are falsy, `func(**args)` when they are a dict; any
      other value cannot be unpacked. */
  function Invoke<W>(tool: Tool<W>, name: string, args: Json, w: W): (r: Ran<W>)
    ensures !Truthy(args) ==> r == tool(NoArgs, w)
    ensures Truthy(args) && args.JObj? ==> r == tool(Kwargs(args.fields), w)
    ensures Truthy(args) && !args.JObj? ==> r == Ran(TypeErr(NotAMapping(name, args)), w)
  {
    if !Truthy(args) then tool(NoArgs, w)
    else if args.JObj? then tool(Kwargs(args.fields), w)
    else Ran(TypeErr(NotAMapping(name, args)), w)
  }

  /** The text `_run_tool` returns and the state the tool left. */
  datatype Dispatched<W> = Dispatched(text: string, world: W)

  /** `name not in TOOLS`, as written: a list or dict name cannot be
      looked up and raises `TypeError` out of the turn. */
  function LookupAsWritten<W>(tools: map<string, Tool<W>>, name: Json): (r: Result<Option<Tool<W>>>)
    ensures r.Raises? <==> !Hashable(name)
    ensures r.Ok? && r.value.Some? <==> name.JStr? && name.s in tools
  {
    if !Hashable(name) then Raises("TypeError: unhashable type: '" + TypeName(name) + "'")
    else if name.JStr? && name.s in tools then Ok(Some(tools[name.s]))
    else Ok(None)
  }

  /** `_run_tool(name, args)` as written. */
  function RunToolAsWritten<W>(tools: map<string, Tool<W>>, codec: Codec, name: Json, args: Json, w: W): (r: Result<Dispatched<W>>)
    ensures r.Raises? <==> !Hashable(name)
  {
    match LookupAsWritten(tools, name)
    case Raises(e) => Raises(e)
    case Ok(None) => Ok(Dispatched(NotImplemented(Text(name, codec)), w))
    case Ok(Some(tool)) =>
      var ran := Invoke(tool, name.s, args, w);
      Ok(Dispatched(Render(name.s, ran.outcome), ran.world))
  }

  /** A backend that names its tool with a list makes the turn raise
      instead of reporting an unknown tool. */
  lemma UnhashableNameRaises<W>(tools: map<string, Tool<W>>, codec: Codec, w: W)
    ensures RunToolAsWritten(tools, codec, JArr([JStr("web_search")]), JObj(map[]), w).Raises?
  {
  }

  /** `_run_tool(name, args)`, with a name that cannot be looked up treated
      as a name that is not registered: every call ends in text. An
      unknown name leaves the state alone; a registered one reports its
      tool's result, or its failure prefixed with the tool's name. */
  function RunTool<W>(tools: map<string, Tool<W>>, codec: Codec, name: Json, args: Json, w: W): (r: Dispatched<W>)
    ensures RunToolAsWritten(tools, codec, name, args, w).Ok? ==> r == RunToolAsWritten(tools, codec, name, args, w).value
    ensures !(name.JStr? && name.s in tools) ==> r == Dispatched(NotImplemented(Text(name, codec)), w)
    ensures name.JStr? && name.s in tools ==>
              var ran := Invoke(tools[name.s], name.s, args, w);
              r.world == ran.world && r.text == Render(name.s, ran.outcome)
  {
    if name.JStr? && name.s in tools then
      var ran := Invoke(tools[name.s], name.s, args, w);
      Dispatched(Render(name.s, ran.outcome), ran.world)
    else Dispatched(NotImplemented(Text(name, codec)), w)
  }

  /** A registered tool's value comes back as it is; each failure is
      reported under the tool's name, and which kind of failure it was can
      be read back from the text. */
  lemma FailuresNameTheTool<W>(tools: map<string, Tool<W>>, codec: Codec, n: string, args: Json, w: W)
    requires n in tools
    ensures var o := Invoke(tools[n], n, args, w).outcome;
            var text := RunTool(tools, codec, JStr(n), args, w).text;
            && (o.Returned? ==> text == o.value)
            && (!o.Returned? ==> Contains(text, n))
            && (!o.Returned? ==> (o.TypeErr? <==> StartsWith(text, "Error calling tool '" + n + "': ")))
  {
    var o := Invoke(tools[n], n, args, w).outcome;
    var text := RunTool(tools, codec, JStr(n), args, w).text;
    match o
    case Returned(_) =>
    case TypeErr(m) =>
      assert text == "Error calling tool '" + (n + ("': " + m));
      ContainsEnds(n, "': " + m);
      ContainsEnds("Error calling tool '", n + ("': " + m));
      ContainsTrans(text, n + ("': " + m), n);
    case OtherErr(m) =>
      assert text == "Tool '" + (n + ("' raised an error: " + m));
      assert text[0] == 'T';
      assert ("Error calling tool '" + n + "': ")[0] == 'E';
      ContainsEnds(n, "' raised an error: " + m);
      ContainsEnds("Tool '", n + ("' raised an error: " + m));
      ContainsTrans(text, n + ("' raised an error: " + m), n);
  }

  /** Arguments that are neither falsy nor a dict never reach the tool:
      the state is unchanged and the reply is the unpacking error. */
  lemma NonMappingArgsNeverRun<W>(tools: map<string, Tool<W>>, codec: Codec, n: string, args: Json, w: W)
    requires n in tools && Truthy(args) && !args.JObj?
    ensures RunTool(tools, codec, JStr(n), args, w)
            == Dispatched("Error calling tool '" + n + "': " + NotAMapping(n, args), w)
  {
  }
}

=== FILE: json.dfy ===
/** Values produced by Python's `json.loads`, their Python truthiness, and
    the JSON codec, which is taken as an oracle pair of functions. */
module Json {

  import opened Options
  import opened PyStr

  /** A decoded JSON document. Numbers are integers in this model. */
  datatype Json =
    | JNull
    | JBool(b: bool)
    | JNum(n: int)
    | JStr(s: string)
    | JArr(items: seq<Json>)
    | JObj(fields: map<string, Json>)

  /** Python truthiness of the decoded value (`if value:` / `value or …`). */
  predicate Truthy(j: Json) {
    match j
    case JNull => false
    case JBool(b) => b
    case JNum(n) => n != 0
    case JStr(s) => |s| > 0
    case JArr(a) => |a| > 0
    case JObj(m) => |m| > 0
  }

  /** Lists and dicts cannot be dictionary keys, nor looked up in one. */
  predicate Hashable(j: Json) {
    !j.JArr? && !j.JObj?
  }

  /** Python's `d.get(key)`. */
  function Get(fields: map<string, Json>, key: string): (r: Option<Json>)
    ensures r.Some? <==> key in fields
    ensures r.Some? ==> r.value == fields[key]
  {
    if key in fields then Some(fields[key]) else None
  }

  /** Python's `d.get(key) or default`: the stored value when it is
      truthy, the default when the key is missing or its value is falsy. */
  function GetOr(fields: map<string, Json>, key: string, default: Json): (r: Json)
    ensures key in fields && Truthy(fields[key]) ==> r == fields[key]
    ensures !(key in fields && Truthy(fields[key])) ==> r == default
  {
    if key in fields && Truthy(fields[key]) then fields[key] else default
  }

  /** The name Python's `type(v).__name__` gives a decoded value. */
  function TypeName(j: Json): string {
    match j
    case JNull => "NoneType"
    case JBool(_) => "bool"
    case JNum(_) => "int"
    case JStr(_) => "str"
    case JArr(_) => "list"
    case JObj(_) => "dict"
  }

  /** Python's `str(v)` for a decoded scalar; `None` for a list or dict,
      whose `repr` is not modelled. */
  function ScalarText(j: Json): (r: Option<string>)
    ensures r.Some? <==> Hashable(j)
    ensures j.JStr? ==> r == Some(j.s)
  {
    match j
    case JNull => Some("None")
    case JBool(b) => Some(if b then "True" else "False")
    case JNum(n) => Some(IntToString(n))
    case JStr(s) => Some(s)
    case _ => None
  }

  /** The outcome of `json.loads`: a value, or a `JSONDecodeError`. */
  datatype Parsed = Invalid | Value(v: Json)

  /** `json.loads` and `json.dumps`, supplied from outside the model.
      `dumps` is the default encoder, which escapes non-ASCII characters;
      `dumpsUnicode` is `json.dumps(v, ensure_ascii=False)`, which writes
      them as they are. */
  datatype Codec = Codec(loads: string -> Parsed, dumps: Json -> string,
                         dumpsUnicode: Json -> string)

  /** A codec whose decoder reads back what its encoder writes, as
      Python's `json` module does for these values. */
  ghost predicate Lawful(c: Codec) {
    forall v: Json :: c.loads(c.dumps(v)) == Value(v)
  }

  /** The text an f-string gives a decoded value: `str(v)` for scalars; a
      list or dict is rendered through `json.dumps`. */
  function Text(j: Json, c: Codec): (r: string)
    ensures Hashable(j) ==> Some(r) == ScalarText(j)
    ensures j.JStr? ==> r == j.s
  {
    match ScalarText(j)
    case Some(t) => t
    case None => c.dumps(j)
  }
}

=== FILE: notes.dfy ===
/** The note store and the `remember_info` / `recall_memory` tools
    (tools.py:159-189) as pure transitions over an in-memory list. The
    timestamp text is supplied by the caller's clock. */
module Notes {

  import opened PyStr

  datatype Note = Note(timestamp: string, text: string)

  /** `recall_memory` shows at most this many of the newest notes. */
  const RecallWindow := 20
  const NoMemory := "I don't have any saved memory yet."
  const MemoryHeader := "Here are the memories I have:\n\n"

  datatype Remembered = Remembered(notes: seq<Note>, confirmation: string)

  /** `remember_info(note)` at the time rendered as `stamp`: one record is
      appended and nothing else changes. */
  function RememberInfo(notes: seq<Note>, stamp: string, note: string): (r: Remembered)
    ensures |r.notes| == |notes| + 1 && r.notes[..|notes|] == notes
    ensures r.notes[|notes|] == Note(stamp, note)
    ensures Contains(r.confirmation, stamp)
  {
    var c := "I've saved this to memory at " + stamp + ".";
    ContainsSelf(stamp);
    ContainsWithin("I've saved this to memory at ", stamp, ".", stamp);
    Remembered(notes + [Note(stamp, note)], c)
  }

  /** Python's `notes[-20:]`: the newest notes, oldest first. */
  function Window(notes: seq<Note>): (w: seq<Note>)
    ensures |w| == if |notes| < RecallWindow then |notes| else RecallWindow
    ensures w == notes[|notes| - |w|..]
  {
    if |notes| < RecallWindow then notes else notes[|notes| - RecallWindow..]
  }

  function Line(n: Note): string {
    "- [" + n.timestamp + "] " + n.text
  }

  /** `recall_memory()`: the newest notes' lines, oldest first, one per
      line after the header. */
  function RecallMemory(notes: seq<Note>): (r: string)
    ensures r == NoMemory <==> notes == []
    ensures notes != [] ==> StartsWith(r, MemoryHeader)
    ensures notes != [] ==> r[|MemoryHeader|..] == Join("\n", LinesOf(Window(notes), Line))
  {
    if notes == [] then NoMemory
    else
      var r := MemoryHeader + Join("\n", LinesOf(Window(notes), Line));
      assert r[..|MemoryHeader|] == MemoryHeader;
      assert r[0] != NoMemory[0];
      r
  }

  /** Each of the newest twenty notes is listed with its
      timestamp. */
  lemma RecallListsWindow(notes: seq<Note>, k: nat)
    requires |notes| - RecallWindow <= k < |notes|
    ensures Contains(RecallMemory(notes), Line(notes[k]))
  {
    var w := Window(notes);
    var j := k - (|notes| - |w|);
    assert w[j] == notes[k];
    JoinContains("\n", LinesOf(w, Line), j);
    ContainsWithin(MemoryHeader, Join("\n", LinesOf(w, Line)), "", Line(notes[k]));
    assert MemoryHeader + Join("\n", LinesOf(w, Line)) + "" == RecallMemory(notes);
  }

  /** Remembering a note and then recalling shows the note with its
      timestamp. */
  lemma RememberThenRecall(notes: seq<Note>, stamp: string, note: string)
    ensures Contains(RecallMemory(RememberInfo(notes, stamp, note).notes),
                     "- [" + stamp + "] " + note)
  {
    var ns := RememberInfo(notes, stamp, note).notes;
    RecallListsWindow(ns, |notes|);
  }
}

=== FILE: options.dfy ===
/** The optional value used wherever the source returns `None` or reads a
    missing dictionary key, and the outcome of a computation that may
    raise. */
module Options {

  datatype Option<+T> = None | Some(value: T) {

    /** The held value, or `default` when there is none. */
    function GetOr(default: T): T {
      match this
      case Some(v) => v
      case None => default
    }
  }

  /** A Python computation that returns a value or raises an exception,
      described by its text. */
  datatype Result<+T> = Ok(value: T) | Raises(error: string)
}

=== FILE: planner.dfy ===
/** The rule-based planner `_mock_decide_action` (agent.py:283-341): an
    ordered, first-match keyword cascade over the lower-cased message. */
module Planner {

  import opened Options
  import opened PyStr
  import opened Json
  import opened Actions

  const MockGreeting := "Hi, I'm Jarvis running in offline mock mode. I received: "

  /** The `minutes_from_now` the planner always asks for. */
  const MockMinutes := 5

  const CheckTriggers := ["check reminders", "any reminders", "show my reminders"]
  const RememberTriggers := ["remember"]
  const RecallTriggers := ["recall", "what do you remember", "memory"]
  const SearchTriggers := ["search", "news"]
  const ReminderTriggers := ["remind", "reminder", "set a reminder"]

  /** Some trigger phrase occurs in `msg`. */
  predicate AnyOf(msg: string, triggers: seq<string>) {
    exists i | 0 <= i < |triggers| :: Contains(msg, triggers[i])
  }

  /** The note to save: the message with every case-sensitive
      "remember that" removed, stripped; the whole message when that
      leaves nothing. */
  function NoteOf(m: string): (n: string)
    ensures |m| > 0 ==> |n| > 0
  {
    var n := Strip(Replace(m, "remember that", ""));
    if n == "" then m else n
  }

  /** `_mock_decide_action(m)`. */
  function Decide(m: string): (a: Action)
    ensures a.ToolCall? ==> a.name in {"check_reminders", "remember_info", "recall_memory", "web_search", "set_reminder"}
  {
    var msg := Lower(m);
    if Contains(msg, "check reminders") || Contains(msg, "any reminders") || Contains(msg, "show my reminders") then
      ToolCall("check_reminders", map[])
    else if Contains(msg, "remember") then
      ToolCall("remember_info", map["note" := JStr(NoteOf(m))])
    else if Contains(msg, "recall") || Contains(msg, "what do you remember") || Contains(msg, "memory") then
      ToolCall("recall_memory", map[])
    else if Contains(msg, "search") || Contains(msg, "news") then
      ToolCall("web_search", map["query" := JStr(m)])
    else if Contains(msg, "remind") || Contains(msg, "reminder") || Contains(msg, "set a reminder") then
      ToolCall("set_reminder", map["message" := JStr(m), "minutes_from_now" := JNum(MockMinutes)])
    else
      Respond(MockGreeting + m)
  }

  // ---------------------------------------------------------------------
  // The cascade as data

  /** A rule: the tool chosen when any of the triggers occurs. */
  datatype Rule = Rule(triggers: seq<string>, tool: string)

  /** The rules in the order they are tried. */
  const Cascade := [
    Rule(CheckTriggers, "check_reminders"),
    Rule(RememberTriggers, "remember_info"),
    Rule(RecallTriggers, "recall_memory"),
    Rule(SearchTriggers, "web_search"),
    Rule(ReminderTriggers, "set_reminder")
  ]

  /** The tool of the first rule that fires on `msg`, if any. */
  function FirstMatch(rules: seq<Rule>, msg: string): Option<string>
    decreases |rules|
  {
    if rules == [] then None
    else if AnyOf(msg, rules[0].triggers) then Some(rules[0].tool)
    else FirstMatch(rules[1..], msg)
  }

  lemma AnyOfThree(msg: string, a: string, b: string, c: string)
    ensures AnyOf(msg, [a, b, c]) <==> Contains(msg, a) || Contains(msg, b) || Contains(msg, c)
  {
    if Contains(msg, a) { assert [a, b, c][0] == a; }
    if Contains(msg, b) { assert [a, b, c][1] == b; }
    if Contains(msg, c) { assert [a, b, c][2] == c; }
  }

  lemma AnyOfTwo(msg: string, a: string, b: string)
    ensures AnyOf(msg, [a, b]) <==> Contains(msg, a) || Contains(msg, b)
  {
    if Contains(msg, a) { assert [a, b][0] == a; }
    if Contains(msg, b) { assert [a, b][1] == b; }
  }

  lemma AnyOfOne(msg: string, a: string)
    ensures AnyOf(msg, [a]) <==> Contains(msg, a)
  {
    if Contains(msg, a) { assert [a][0] == a; }
  }

  /** The planner chooses a tool exactly when some rule of the cascade
      fires on the lower-cased message, and then the tool of the first
      rule that fires. */
  lemma DecideFollowsCascade(m: string)
    ensures Decide(m).ToolCall? <==> FirstMatch(Cascade, Lower(m)).Some?
    ensures Decide(m).ToolCall? ==> Decide(m).name == FirstMatch(Cascade, Lower(m)).value
  {
    var msg := Lower(m);
    AnyOfThree(msg, "check reminders", "any reminders", "show my reminders");
    AnyOfOne(msg, "remember");
    AnyOfThree(msg, "recall", "what do you remember", "memory");
    AnyOfTwo(msg, "search", "news");
    AnyOfThree(msg, "remind", "reminder", "set a reminder");
    var r1 := Cascade[1..];
    var r2 := r1[1..];
    var r3 := r2[1..];
    var r4 := r3[1..];
    assert r1 == [Rule(RememberTriggers, "remember_info"), Rule(RecallTriggers, "recall_memory"),
                  Rule(SearchTriggers, "web_search"), Rule(ReminderTriggers, "set_reminder")];
    assert r2 == [Rule(RecallTriggers, "recall_memory"), Rule(SearchTriggers, "web_search"),
                  Rule(ReminderTriggers, "set_reminder")];
    assert r3 == [Rule(SearchTriggers, "web_search"), Rule(ReminderTriggers, "set_reminder")];
    assert r4 == [Rule(ReminderTriggers, "set_reminder")];
    assert r4[1..] == [];
    assert FirstMatch(r4, msg) == (if AnyOf(msg, ReminderTriggers) then Some("set_reminder") else None);
    assert FirstMatch(r3, msg) == (if AnyOf(msg, SearchTriggers) then Some("web_search") else FirstMatch(r4, msg));
    assert FirstMatch(r2, msg) == (if AnyOf(msg, RecallTriggers) then Some("recall_memory") else FirstMatch(r3, msg));
    assert FirstMatch(r1, msg) == (if AnyOf(msg, RememberTriggers) then Some("remember_info") else FirstMatch(r2, msg));
    assert FirstMatch(Cascade, msg) == (if AnyOf(msg, CheckTriggers) then Some("check_reminders") else FirstMatch(r1, msg));
  }

  // ---------------------------------------------------------------------
  // Consequences of the order

  /** A reminder-check phrase selects `check_reminders` with no
      arguments, even when the message also mentions "remember" or
      "reminder". */
  lemma CheckPhraseWins(m: string)
    requires AnyOf(Lower(m), CheckTriggers)
    ensures Decide(m) == ToolCall("check_reminders", map[])
  {
    AnyOfThree(Lower(m), "check reminders", "any reminders", "show my reminders");
  }

  /** A message mentioning "remember" that is not a reminder check saves
      the note `NoteOf(m)`. */
  lemma RememberRule(m: string)
    requires Contains(Lower(m), "remember") && !AnyOf(Lower(m), CheckTriggers)
    ensures Decide(m) == ToolCall("remember_info", map["note" := JStr(NoteOf(m))])
  {
    AnyOfThree(Lower(m), "check reminders", "any reminders", "show my reminders");
  }

  /** Any message mentioning "remember" that is not a reminder check saves
      a note; so the recall phrase "what do you remember" never reaches
      the recall rule. */
  lemma RecallPhraseShadowed(m: string)
    requires Contains(Lower(m), "what do you remember") && !AnyOf(Lower(m), CheckTriggers)
    ensures Decide(m).ToolCall? && Decide(m).name == "remember_info"
  {
    assert OccursAt("what do you remember", "remember", 12);
    ContainsTrans(Lower(m), "what do you remember", "remember");
    AnyOfThree(Lower(m), "check reminders", "any reminders", "show my reminders");
  }

  /** The note the planner saves is never empty. */
  lemma NoteNeverEmpty(m: string)
    requires Decide(m).ToolCall? && Decide(m).name == "remember_info"
    ensures "note" in Decide(m).args && Decide(m).args["note"].JStr?
    ensures |Decide(m).args["note"].s| > 0
  {
    assert Contains(Lower(m), "remember");
    assert |Lower(m)| >= |"remember"|;
  }

  /** The reminder rule fires exactly on "remind": its two longer phrases
      contain it. It passes the message as written, not lower-cased, and
      five minutes. */
  lemma ReminderRuleFiresOnRemind(m: string)
    requires !AnyOf(Lower(m), CheckTriggers) && !Contains(Lower(m), "remember")
    requires !AnyOf(Lower(m), RecallTriggers) && !AnyOf(Lower(m), SearchTriggers)
    ensures Decide(m).ToolCall? <==> Contains(Lower(m), "remind")
    ensures Decide(m).ToolCall? ==>
              Decide(m) == ToolCall("set_reminder", map["message" := JStr(m), "minutes_from_now" := JNum(5)])
  {
    var msg := Lower(m);
    AnyOfThree(msg, "check reminders", "any reminders", "show my reminders");
    AnyOfThree(msg, "recall", "what do you remember", "memory");
    AnyOfTwo(msg, "search", "news");
    if Contains(msg, "reminder") {
      assert OccursAt("reminder", "remind", 0);
      ContainsTrans(msg, "reminder", "remind");
    }
    if Contains(msg, "set a reminder") {
      assert OccursAt("set a reminder", "remind", 6);
      ContainsTrans(msg, "set a reminder", "remind");
    }
  }

  /** With no trigger the planner responds with the greeting followed by
      the message. */
  lemma NoTriggerEchoes(m: string)
    requires FirstMatch(Cascade, Lower(m)).None?
    ensures Decide(m) == Respond(MockGreeting + m)
  {
    DecideFollowsCascade(m);
  }
}

=== FILE: py_str.dfy ===
/** The Python `str` operations the agent and its tools rely on, with
    CPython's semantics: `in`, `startswith`, `find`, `rfind`, slicing with
    negative and out-of-range bounds, `strip`, `replace`, `lower` and the
    conversions between `int` and decimal text. */
module PyStr {

  import opened Options

  /** Python's `s.startswith(p)`. */
  predicate StartsWith(s: string, p: string) {
    |p| <= |s| && s[..|p|] == p
  }

  /** `sub` occurs in `s` beginning at index `i`. */
  predicate OccursAt(s: string, sub: string, i: int) {
    0 <= i && i + |sub| <= |s| && s[i..i + |sub|] == sub
  }

  /** Python's `sub in s`. */
  predicate Contains(s: string, sub: string) {
    exists i | 0 <= i <= |s| - |sub| :: OccursAt(s, sub, i)
  }

  lemma ContainsAt(s: string, sub: string, i: int)
    requires OccursAt(s, sub, i)
    ensures Contains(s, sub)
  {
  }

  /** Being a substring is transitive: whatever contains `mid` contains
      every substring of `mid`. */
  lemma ContainsTrans(s: string, mid: string, sub: string)
    requires Contains(s, mid) && Contains(mid, sub)
    ensures Contains(s, sub)
  {
    var i :| 0 <= i <= |s| - |mid| && OccursAt(s, mid, i);
    var j :| 0 <= j <= |mid| - |sub| && OccursAt(mid, sub, j);
    forall k | 0 <= k < |sub|
      ensures s[i + j..i + j + |sub|][k] == sub[k]
    {
      assert sub[k] == mid[j..j + |sub|][k] == mid[j + k];
      assert mid[j + k] == s[i..i + |mid|][j + k];
    }
    assert s[i + j..i + j + |sub|] == sub;
    assert OccursAt(s, sub, i + j);
  }

  lemma ContainsSelf(s: string)
    ensures Contains(s, s)
  {
    assert OccursAt(s, s, 0);
  }

  /** A string contains each of its prefixes and suffixes. */
  lemma ContainsEnds(a: string, b: string)
    ensures Contains(a + b, a) && Contains(a + b, b)
  {
    assert OccursAt(a + b, a, 0) by { assert (a + b)[..|a|] == a; }
    assert OccursAt(a + b, b, |a|) by { assert (a + b)[|a|..] == b; }
  }

  /** A string contained in `b` is contained in any `a + b + c`. */
  lemma ContainsWithin(a: string, b: string, c: string, sub: string)
    requires Contains(b, sub)
    ensures Contains(a + b + c, sub)
  {
    ContainsEnds(a, b);
    ContainsEnds(a + b, c);
    ContainsTrans(a + b, b, sub);
    ContainsTrans(a + b + c, a + b, sub);
  }

  // ---------------------------------------------------------------------
  // Case and whitespace

  /** `c.lower()` for ASCII letters; every other character is kept. */
  function LowerChar(c: char): char {
    if 'A' <= c <= 'Z' then (c as int + 32) as char else c
  }

  /** Python's `s.lower()`, restricted to ASCII case mapping. */
  function Lower(s: string): (r: string)
    ensures |r| == |s|
    ensures forall i | 0 <= i < |s| :: !('A' <= r[i] <= 'Z')
    ensures forall i | 0 <= i < |s| ::
              r[i] == s[i] || ('A' <= s[i] <= 'Z' && r[i] as int == s[i] as int + 32)
  {
    seq(|s|, i requires 0 <= i < |s| => LowerChar(s[i]))
  }

  /** The characters for which Python's `str.isspace()` holds; these are
      the characters `str.strip()` removes. */
  predicate IsSpace(c: char) {
    || ('\t' <= c <= '\r')
    || ('\U{1C}' <= c <= ' ')
    || c == '\U{85}' || c == '\U{A0}' || c == '\U{1680}'
    || ('\U{2000}' <= c <= '\U{200A}')
    || c == '\U{2028}' || c == '\U{2029}' || c == '\U{202F}'
    || c == '\U{205F}' || c == '\U{3000}'
  }

  /** Python's `s.lstrip()`: the suffix left after dropping leading whitespace. */
  function StripLeft(s: string): (r: string)
    ensures |r| <= |s| && r == s[|s| - |r|..]
    ensures forall i | 0 <= i < |s| - |r| :: IsSpace(s[i])
    ensures r == [] || !IsSpace(r[0])
  {
    if |s| > 0 && IsSpace(s[0]) then StripLeft(s[1..]) else s
  }

  /** Python's `s.rstrip()`: the prefix left after dropping trailing whitespace. */
  function StripRight(s: string): (r: string)
    ensures |r| <= |s| && r == s[..|r|]
    ensures forall i | |r| <= i < |s| :: IsSpace(s[i])
    ensures r == [] || !IsSpace(r[|r| - 1])
  {
    if |s| > 0 && IsSpace(s[|s| - 1]) then StripRight(s[..|s| - 1]) else s
  }

  /** Python's `s.strip()`. The result is empty exactly when `s` is all
      whitespace; otherwise it is the stretch of `s` from its first to its
      last non-whitespace character. */
  function Strip(s: string): (r: string)
    ensures r == [] <==> forall i | 0 <= i < |s| :: IsSpace(s[i])
    ensures r != [] ==> !IsSpace(r[0]) && !IsSpace(r[|r| - 1])
  {
    StripRight(StripLeft(s))
  }

  /** `r` is the stretch of `s` starting at `i`, with only whitespace
      before and after it. */
  predicate Stretch(s: string, i: nat, r: string) {
    && i + |r| <= |s| && r == s[i..i + |r|]
    && (forall k | 0 <= k < i :: IsSpace(s[k]))
    && (forall k | i + |r| <= k < |s| :: IsSpace(s[k]))
  }

  /** What `strip()` keeps: one stretch of `s`, starting where `lstrip()`
      stops, with only whitespace around it. With the ends of the stretch
      being non-whitespace, this fixes the stretch. */
  lemma StripStretch(s: string)
    ensures Stretch(s, |s| - |StripLeft(s)|, Strip(s))
  {
    HalvesStretch(s);
  }

  /** The stretch `rstrip()` leaves of what `lstrip()` left. */
  lemma HalvesStretch(s: string)
    ensures Stretch(s, |s| - |StripLeft(s)|, StripRight(StripLeft(s)))
  {
    var l := StripLeft(s);
    var r := StripRight(l);
    assert |l| <= |s| && l == s[|s| - |l|..];
    assert forall j | 0 <= j < |s| - |l| :: IsSpace(s[j]);
    assert |r| <= |l| && r == l[..|r|];
    assert forall j | |r| <= j < |l| :: IsSpace(l[j]);
    StripSpan(s, l, r);
    assert r == s[|s| - |l|..|s| - |l| + |r|];
  }

  /** Where the two halves of `strip()` cut. */
  lemma StripSpan(s: string, l: string, r: string)
    requires |l| <= |s| && l == s[|s| - |l|..]
    requires forall j | 0 <= j < |s| - |l| :: IsSpace(s[j])
    requires |r| <= |l| && r == l[..|r|]
    requires forall j | |r| <= j < |l| :: IsSpace(l[j])
    ensures Stretch(s, |s| - |l|, r)
  {
    var i := |s| - |l|;
    forall k | i + |r| <= k < |s|
      ensures IsSpace(s[k])
    {
      assert s[k] == l[k - i];
    }
  }

  /** A text that begins and ends with non-whitespace survives `strip()` at
      the front of anything appended to it. */
  lemma StripKeepsHead(p: string, x: string)
    requires |p| > 0 && !IsSpace(p[0]) && !IsSpace(p[|p| - 1])
    ensures StartsWith(Strip(p + x), p)
  {
    var s := p + x;
    assert StripLeft(s) == s;
    var r := StripRight(s);
    assert s[|p| - 1] == p[|p| - 1];
    assert r[..|p|] == s[..|p|];
  }

  /** `strip()` leaves a text that already begins and ends with
      non-whitespace unchanged. */
  lemma StripTrimmed(s: string)
    requires |s| > 0 && !IsSpace(s[0]) && !IsSpace(s[|s| - 1])
    ensures Strip(s) == s
  {
    StripKeepsHead(s, []);
    assert s + [] == s;
  }

  /** `strip()` of a text framed by one whitespace character on each side
      gives back the text, when it begins and ends with non-whitespace. */
  lemma StripSurrounded(core: string, c: char, d: char)
    requires IsSpace(c) && IsSpace(d)
    requires |core| > 0 && !IsSpace(core[0]) && !IsSpace(core[|core| - 1])
    ensures Strip([c] + core + [d]) == core
  {
    var s := [c] + core + [d];
    assert s[1..] == core + [d];
    assert StripLeft(s) == core + [d];
    assert (core + [d])[..|core + [d]| - 1] == core;
  }

  /** `strip()` is idempotent. */
  lemma StripIdempotent(s: string)
    ensures Strip(Strip(s)) == Strip(s)
  {
    if Strip(s) != [] {
      StripTrimmed(Strip(s));
    }
  }

  // ---------------------------------------------------------------------
  // Searching and slicing

  /** Python's normalisation of a slice or search bound against a string
      of length `n`: a negative bound counts from the end, and the result
      is clamped into `0..n`. */
  function Clamp(i: int, n: nat): (k: nat)
    ensures k <= n
    ensures 0 <= i <= n ==> k == i
  {
    if i < 0 then (if i + n < 0 then 0 else i + n) else if i > n then n else i
  }

  /** The first occurrence of `sub` in `s` at or after `i`, or -1. */
  function FindFrom(s: string, sub: string, i: nat): (r: int)
    requires |sub| > 0
    ensures r == -1 || (i <= r && OccursAt(s, sub, r))
    ensures forall j | i <= j && (r == -1 || j < r) :: !OccursAt(s, sub, j)
    decreases |s| - i
  {
    if i + |sub| > |s| then -1
    else if s[i..i + |sub|] == sub then i
    else FindFrom(s, sub, i + 1)
  }

  /** Python's `s.find(sub, start)`: the least index at or after the
      normalised `start` where `sub` occurs, or -1 when there is none. */
  function Find(s: string, sub: string, start: int): (r: int)
    requires |sub| > 0
    ensures r == -1 || (Clamp(start, |s|) <= r && OccursAt(s, sub, r))
    ensures forall j | Clamp(start, |s|) <= j && (r == -1 || j < r) :: !OccursAt(s, sub, j)
  {
    FindFrom(s, sub, Clamp(start, |s|))
  }

  /** The last occurrence of `sub` in `s` at an index in `lo..i`, or -1. */
  function RFindDown(s: string, sub: string, lo: nat, i: int): (r: int)
    requires |sub| > 0
    ensures r == -1 || (lo <= r <= i && OccursAt(s, sub, r))
    ensures forall j | lo <= j <= i && (r == -1 || r < j) :: !OccursAt(s, sub, j)
    decreases i - lo + 1
  {
    if i < lo then -1
    else if OccursAt(s, sub, i) then i
    else RFindDown(s, sub, lo, i - 1)
  }

  /** Python's `s.rfind(sub, start, end)`: the greatest index `i` with the
      whole occurrence of `sub` inside the normalised `start..end`, or -1. */
  function RFind(s: string, sub: string, start: int, end: int): (r: int)
    requires |sub| > 0
    ensures r == -1 || (Clamp(start, |s|) <= r && r + |sub| <= Clamp(end, |s|) && OccursAt(s, sub, r))
    ensures forall j | Clamp(start, |s|) <= j && j + |sub| <= Clamp(end, |s|) && (r == -1 || r < j) ::
              !OccursAt(s, sub, j)
  {
    RFindDown(s, sub, Clamp(start, |s|), Clamp(end, |s|) - |sub|)
  }

  /** `find` from `start` gives the first occurrence at or after it. */
  lemma FindIs(s: string, sub: string, start: nat, r: nat)
    requires |sub| > 0 && start <= r && OccursAt(s, sub, r)
    requires forall j | start <= j < r :: !OccursAt(s, sub, j)
    ensures Find(s, sub, start) == r
  {
  }

  /** `rfind` up to `end` gives the last occurrence lying wholly before it. */
  lemma RFindIs(s: string, sub: string, end: nat, r: nat)
    requires |sub| > 0 && r + |sub| <= end <= |s| && OccursAt(s, sub, r)
    requires forall j | r < j && j + |sub| <= end :: !OccursAt(s, sub, j)
    ensures RFind(s, sub, 0, end) == r
  {
  }

  /** Python's `s[a:b]`. */
  function Slice(s: string, a: int, b: int): (r: string)
    ensures |r| <= |s|
    ensures Clamp(a, |s|) <= Clamp(b, |s|) ==> r == s[Clamp(a, |s|)..Clamp(b, |s|)]
    ensures Clamp(a, |s|) >= Clamp(b, |s|) ==> r == []
  {
    var i, j := Clamp(a, |s|), Clamp(b, |s|);
    if i < j then s[i..j] else []
  }

  /** Python's `s.replace(pat, rep)` for a non-empty `pat`: every
      non-overlapping occurrence, scanned left to right, is replaced. */
  function Replace(s: string, pat: string, rep: string): (r: string)
    requires |pat| > 0
    ensures |rep| <= |pat| ==> |r| <= |s|
    decreases |s|
  {
    if |s| < |pat| then s
    else if s[..|pat|] == pat then rep + Replace(s[|pat|..], pat, rep)
    else [s[0]] + Replace(s[1..], pat, rep)
  }

  /** Text without the pattern comes back unchanged. */
  lemma {:induction false} ReplaceAbsent(s: string, pat: string, rep: string)
    requires |pat| > 0 && !Contains(s, pat)
    ensures Replace(s, pat, rep) == s
    decreases |s|
  {
    if |s| >= |pat| {
      assert !OccursAt(s, pat, 0);
      assert s[..|pat|] != pat;
      forall j | 0 <= j <= |s| - 1 - |pat|
        ensures !OccursAt(s[1..], pat, j)
      {
        OccursShift(s, pat, j);
      }
      ReplaceAbsent(s[1..], pat, rep);
      assert [s[0]] + s[1..] == s;
    }
  }

  /** An occurrence in `s[1..]` is an occurrence in `s` one place later. */
  lemma OccursShift(s: string, sub: string, j: nat)
    requires |s| > 0
    ensures OccursAt(s[1..], sub, j) <==> OccursAt(s, sub, j + 1)
  {
    if j + 1 + |sub| <= |s| {
      assert s[1..][j..j + |sub|] == s[j + 1..j + 1 + |sub|];
    }
  }

  /** A first occurrence at `i > 0` in `s` is a first occurrence at
      `i - 1` in `s[1..]`. */
  lemma FirstOccursShift(s: string, sub: string, i: nat)
    requires 0 < i && OccursAt(s, sub, i)
    requires forall j | 0 <= j < i :: !OccursAt(s, sub, j)
    ensures OccursAt(s[1..], sub, i - 1)
    ensures forall j | 0 <= j < i - 1 :: !OccursAt(s[1..], sub, j)
  {
    OccursShift(s, sub, i - 1);
    forall j | 0 <= j < i - 1
      ensures !OccursAt(s[1..], sub, j)
    {
      OccursShift(s, sub, j);
    }
  }

  /** Where the pattern does not start the text, `replace` keeps the first
      character. */
  lemma ReplaceSkips(s: string, pat: string, rep: string)
    requires |pat| > 0 && |s| > 0 && !OccursAt(s, pat, 0)
    ensures Replace(s, pat, rep) == [s[0]] + Replace(s[1..], pat, rep)
  {
    if |s| >= |pat| {
      assert s[..|pat|] != pat;
    }
  }

  /** Where the pattern starts the text, `replace` puts the replacement
      there. */
  lemma ReplaceAtStart(s: string, pat: string, rep: string)
    requires |pat| > 0 && OccursAt(s, pat, 0)
    ensures Replace(s, pat, rep) == s[..0] + rep + Replace(s[|pat|..], pat, rep)
  {
    assert s[..|pat|] == pat;
    assert s[..0] + rep == rep;
  }

  /** `replace` rewrites the first occurrence of the pattern and carries
      on after it: the text before it is kept as it is. */
  lemma {:induction false} ReplaceAtFirst(s: string, pat: string, rep: string, i: nat)
    requires |pat| > 0 && OccursAt(s, pat, i)
    requires forall j | 0 <= j < i :: !OccursAt(s, pat, j)
    ensures Replace(s, pat, rep) == s[..i] + rep + Replace(s[i + |pat|..], pat, rep)
    decreases i
  {
    if i == 0 {
      ReplaceAtStart(s, pat, rep);
    } else {
      FirstOccursShift(s, pat, i);
      ReplaceAtFirst(s[1..], pat, rep, i - 1);
      ReplaceStep(s, pat, rep, i);
    }
  }

  /** One step of `ReplaceAtFirst`: what holds of `s[1..]` holds of `s`
      one place later, when the pattern does not start `s`. */
  lemma ReplaceStep(s: string, pat: string, rep: string, i: nat)
    requires |pat| > 0 && 0 < i && i + |pat| <= |s| && !OccursAt(s, pat, 0)
    requires Replace(s[1..], pat, rep)
             == s[1..][..i - 1] + rep + Replace(s[1..][i - 1 + |pat|..], pat, rep)
    ensures Replace(s, pat, rep) == s[..i] + rep + Replace(s[i + |pat|..], pat, rep)
  {
    var t := s[1..];
    ReplaceSkips(s, pat, rep);
    assert t[i - 1 + |pat|..] == s[i + |pat|..];
    PrefixOneMore(s, i, Replace(s, pat, rep), Replace(t, pat, rep), rep,
                  Replace(s[i + |pat|..], pat, rep));
  }

  /** The text arithmetic of one step of `ReplaceAtFirst`. */
  lemma PrefixOneMore(s: string, i: nat, x: string, y: string, rep: string, z: string)
    requires 0 < i <= |s|
    requires x == [s[0]] + y && y == s[1..][..i - 1] + rep + z
    ensures x == s[..i] + rep + z
  {
    assert [s[0]] + s[1..][..i - 1] == s[..i];
  }

  // ---------------------------------------------------------------------
  // Joining

  /** One formatted line per item, in order: `[line(x) for x in xs]`. */
  function LinesOf<T>(xs: seq<T>, line: T -> string): (ls: seq<string>)
    ensures |ls| == |xs|
    ensures forall i | 0 <= i < |xs| :: ls[i] == line(xs[i])
  {
    seq(|xs|, i requires 0 <= i < |xs| => line(xs[i]))
  }

  /** Python's `sep.join(items)`. */
  function Join(sep: string, items: seq<string>): string
    decreases |items|
  {
    if |items| == 0 then ""
    else if |items| == 1 then items[0]
    else items[0] + sep + Join(sep, items[1..])
  }

  /** Every joined item is a substring of the joined text. */
  lemma {:induction false} JoinContains(sep: string, items: seq<string>, k: nat)
    requires k < |items|
    ensures Contains(Join(sep, items), items[k])
    decreases |items|
  {
    if |items| == 1 {
      ContainsEnds(items[0], "");
      assert items[0] + "" == items[0];
    } else if k == 0 {
      ContainsEnds(items[0], sep + Join(sep, items[1..]));
      assert items[0] + (sep + Join(sep, items[1..])) == Join(sep, items);
    } else {
      JoinContains(sep, items[1..], k - 1);
      ContainsWithin(items[0] + sep, Join(sep, items[1..]), "", items[k]);
      assert items[0] + sep + Join(sep, items[1..]) + "" == Join(sep, items);
    }
  }

  // ---------------------------------------------------------------------
  // Integers as decimal text

  predicate IsDigit(c: char) {
    '0' <= c <= '9'
  }

  function DigitChar(d: nat): (c: char)
    requires d < 10
    ensures IsDigit(c)
  {
    ('0' as int + d) as char
  }

  /** The decimal digits of `n`, most significant first, without leading zeros. */
  function NatToString(n: nat): (r: string)
    ensures |r| > 0
    ensures forall i | 0 <= i < |r| :: IsDigit(r[i])
    ensures |r| > 1 ==> r[0] != '0'
    decreases n
  {
    if n < 10 then [DigitChar(n)] else NatToString(n / 10) + [DigitChar(n % 10)]
  }

  /** Python's `str(i)` for an integer. */
  function IntToString(i: int): (r: string)
    ensures |r| > 0
  {
    if i < 0 then "-" + NatToString(-i) else NatToString(i)
  }

  /** The value of a string of decimal digits. */
  function DigitsValue(s: string): (v: int)
    requires forall i | 0 <= i < |s| :: IsDigit(s[i])
    ensures v >= 0
    decreases |s|
  {
    if |s| == 0 then 0
    else
      assert IsDigit(s[|s| - 1]);
      DigitsValue(s[..|s| - 1]) * 10 + (s[|s| - 1] as int - '0' as int)
  }

  /** Reading back the digits of `n` gives `n`. */
  lemma {:induction false} DigitsValueOfNat(n: nat)
    ensures DigitsValue(NatToString(n)) == n
    decreases n
  {
    var s := NatToString(n);
    if n >= 10 {
      DigitsValueOfNat(n / 10);
      assert s[..|s| - 1] == NatToString(n / 10);
    }
  }

  predicate AllDigits(s: string) {
    |s| > 0 && forall i | 0 <= i < |s| :: IsDigit(s[i])
  }

  /** An integer literal as `int()` reads it: an optional sign followed by
      at least one ASCII digit. */
  predicate IsIntLiteral(t: string) {
    AllDigits(t) || (|t| > 0 && (t[0] == '-' || t[0] == '+') && AllDigits(t[1..]))
  }

  /** Python's `int(s)` on text: surrounding whitespace is ignored, an
      optional sign may precede at least one ASCII digit; anything else is
      a `ValueError` (here `None`). */
  function ParseInt(s: string): (r: Option<int>)
    ensures r.Some? <==> IsIntLiteral(Strip(s))
    ensures r.Some? && AllDigits(Strip(s)) ==> r.value == DigitsValue(Strip(s)) >= 0
    ensures r.Some? && r.value < 0 ==> Strip(s)[0] == '-'
    ensures r.Some? && Strip(s)[0] == '-' ==> r.value == -DigitsValue(Strip(s)[1..])
    ensures r.Some? && Strip(s)[0] == '+' ==> r.value == DigitsValue(Strip(s)[1..])
  {
    var t := Strip(s);
    if |t| > 0 && t[0] == '-' && AllDigits(t[1..]) then Some(-DigitsValue(t[1..]))
    else if |t| > 0 && t[0] == '+' && AllDigits(t[1..]) then Some(DigitsValue(t[1..]))
    else if AllDigits(t) then Some(DigitsValue(t))
    else None
  }

  /** The decimal text of an integer has no surrounding whitespace. */
  lemma IntToStringTrimmed(i: int)
    ensures Strip(IntToString(i)) == IntToString(i)
  {
    var s := IntToString(i);
    assert !IsSpace(s[0]) && !IsSpace(s[|s| - 1]);
    StripTrimmed(s);
  }

  /** `int(str(n)) == n` for a natural number: unsigned digits. */
  lemma ParseNatural(n: nat)
    ensures ParseInt(IntToString(n)) == Some(n)
  {
    var t := NatToString(n);
    assert IntToString(n) == t;
    IntToStringTrimmed(n);
    assert Strip(t) == t;
    assert AllDigits(t) && t[0] != '-' && t[0] != '+';
    DigitsValueOfNat(n);
  }

  /** `int(str(i)) == i` for a negative integer: a minus sign, then the
      digits of its magnitude. */
  lemma ParseNegative(i: int)
    requires i < 0
    ensures ParseInt(IntToString(i)) == Some(i)
  {
    NegativeText(i);
    ParseMinus(IntToString(i), -i);
  }

  /** The decimal text of a negative integer strips to a minus sign
      followed by the digits of its magnitude. */
  lemma NegativeText(i: int)
    requires i < 0
    ensures Strip(IntToString(i)) == "-" + NatToString(-i)
    ensures AllDigits(NatToString(-i))
  {
    IntToStringTrimmed(i);
  }

  /** Text that strips to a minus sign and the decimal digits of `n`
      reads as `-n`. */
  lemma ParseMinus(s: string, n: nat)
    requires Strip(s) == "-" + NatToString(n)
    ensures ParseInt(s) == Some(-(n as int))
  {
    var t := NatToString(n);
    assert AllDigits(t);
    DigitsValueOfNat(n);
    ParseMinusDigits(s, t);
  }

  /** Text that strips to a minus sign and digits reads as the negated
      value of the digits. */
  lemma ParseMinusDigits(s: string, t: string)
    requires Strip(s) == "-" + t && AllDigits(t)
    ensures ParseInt(s) == Some(-DigitsValue(t))
  {
    var u := Strip(s);
    assert u[0] == '-';
    assert u[1..] == t;
  }

  /** `int(str(i)) == i`: the decimal text of every integer reads back as
      that integer. */
  lemma ParseIntToString(i: int)
    ensures ParseInt(IntToString(i)) == Some(i)
  {
    if i < 0 {
      ParseNegative(i);
    } else {
      ParseNatural(i);
    }
  }
}

=== FILE: read_file.dfy ===
/** `read_file` (tools.py:120-154) over an abstract file system. Path
    normalisation (`os.path.abspath(os.path.join(root, path))`) is supplied
    from outside; the model keeps the containment test, the order of the
    checks and the truncation. */
module ReadFile {

  import opened PyStr

  /** What reading a file yields: its text, or the error `open`/`read` raised. */
  datatype Contents = Text(text: string) | Unreadable(detail: string)

  /** A path that exists, with its size in bytes. */
  datatype Entry = Entry(size: int, contents: Contents)

  /** The project root, path normalisation, and the existing paths. */
  datatype Disk = Disk(root: string, resolve: string -> string, files: map<string, Entry>)

  const MaxBytes := 200 * 1024
  const MaxChars := 4000
  const TruncationNote := "\n\n[Content truncated...]"
  const AccessDenied := "Access denied: you can only read files inside the project folder."
  const TooLargeMessage := "File is too large to read (limit: 200KB)."

  /** Content longer than 4000 characters is cut to its first 4000 and
      marked as truncated. */
  function Cap(c: string): (r: string)
    ensures |c| <= MaxChars ==> r == c
    ensures |c| > MaxChars ==> StartsWith(r, c[..MaxChars]) && |r| == MaxChars + |TruncationNote|
    ensures |r| <= MaxChars + |TruncationNote|
  {
    if |c| > MaxChars then c[..MaxChars] + TruncationNote else c
  }

  /** Which answer `read_file` gives. */
  datatype Outcome = Denied | NotFound | TooLarge | ReadError(detail: string) | Shown(content: string)

  /** The checks of `read_file`, in the source's order, once the
      containment test has given `allowed`: denial first, then a missing
      path, then the size limit, then read errors; the content is shown
      exactly when every check passes. */
  function Check(allowed: bool, full: string, files: map<string, Entry>): (o: Outcome)
    ensures o.Denied? <==> !allowed
    ensures o.NotFound? <==> allowed && full !in files
    ensures o.TooLarge? <==> allowed && full in files && files[full].size > MaxBytes
    ensures o.Shown? ==> allowed && full in files && files[full].size <= MaxBytes
                         && files[full].contents.Text?
                         && o.content == Cap(files[full].contents.text)
    ensures allowed && full in files && files[full].size <= MaxBytes ==>
              match files[full].contents
              case Text(c) => o == Shown(Cap(c))
              case Unreadable(e) => o == ReadError(e)
  {
    if !allowed then Denied
    else if full !in files then NotFound
    else if files[full].size > MaxBytes then TooLarge
    else match files[full].contents
      case Unreadable(e) => ReadError(e)
      case Text(c) => Shown(Cap(c))
  }

  /** The text `read_file` returns for an outcome. */
  function Message(o: Outcome, path: string): string {
    match o
    case Denied => AccessDenied
    case NotFound => "File not found: " + path
    case TooLarge => TooLargeMessage
    case ReadError(e) => "Error reading file: " + e
    case Shown(c) => "Content of " + path + ":\n\n" + c
  }

  /** The source's containment test: the normalised path starts with the
      root text. */
  predicate StartsWithRoot(full: string, root: string) {
    StartsWith(full, root)
  }

  /** Containment as intended: the normalised path is the root itself or
      lies below it, a `/` separating the root from the rest. */
  predicate Within(full: string, root: string) {
    || full == root
    || StartsWith(full, root + "/")
    || (|root| > 0 && root[|root| - 1] == '/' && StartsWith(full, root))
  }

  /** `read_file(path)` as written, with the bare prefix test. */
  function ReadFileAsWritten(disk: Disk, path: string): (r: string)
    ensures !StartsWithRoot(disk.resolve(path), disk.root) ==> r == AccessDenied
  {
    var full := disk.resolve(path);
    Message(Check(StartsWithRoot(full, disk.root), full, disk.files), path)
  }

  /** `read_file(path)` with the containment test the source intends. */
  function ReadFile(disk: Disk, path: string): (r: string)
    ensures !Within(disk.resolve(path), disk.root) ==> r == AccessDenied
  {
    var full := disk.resolve(path);
    Message(Check(Within(full, disk.root), full, disk.files), path)
  }

  /** The bare prefix test lets through a sibling directory whose name
      extends the root's: with the root `/srv/agent`, the path
      `../agent-keys/id` resolves to `/srv/agent-keys/id` and is read. */
  lemma SiblingDirectoryIsRead()
    ensures var disk := Disk("/srv/agent", p => "/srv/agent-keys/id",
                             map["/srv/agent-keys/id" := Entry(6, Text("secret"))]);
            && ReadFileAsWritten(disk, "../agent-keys/id") == "Content of ../agent-keys/id:\n\nsecret"
            && ReadFile(disk, "../agent-keys/id") == AccessDenied
  {
    var full := "/srv/agent-keys/id";
    assert StartsWith(full, "/srv/agent");
    assert full[10] == '-';
    assert !StartsWith(full, "/srv/agent" + "/");
  }

  /** The containment test admits only the root and paths below it. */
  lemma WithinMeansBelow(full: string, root: string)
    requires Within(full, root)
    ensures StartsWith(full, root)
    ensures |full| > |root| ==> full[|root|] == '/' || root[|root| - 1] == '/'
  {
    if StartsWith(full, root + "/") {
      assert full[..|root|] == (root + "/")[..|root|] == root;
      assert full[|root|] == (root + "/")[|root|];
    }
  }

  /** Whatever the contained reader accepts, the source's reader accepts
      too, with the same answer; the two differ only on paths outside the
      root. */
  lemma ReadFileRefinesAsWritten(disk: Disk, path: string)
    requires Within(disk.resolve(path), disk.root)
    ensures ReadFile(disk, path) == ReadFileAsWritten(disk, path)
  {
    WithinMeansBelow(disk.resolve(path), disk.root);
  }
}

=== FILE: registry.dfy ===
/** The `TOOLS` registry (tools.py:262-269): the six tools, each binding
    its keyword arguments the way a Python call does and then running its
    body over the stores. The clock, time formatting, the web fetch and the
    file system come from the host. */
module Registry {

  import opened Options
  import opened PyStr
  import opened Json
  import opened ToolCalls
  import Notes
  import Reminders
  import WebSearch
  import ReadFile

  /** The state the tools persist: the note list and the reminder list. */
  datatype Stores = Stores(notes: seq<Notes.Note>, reminders: seq<Reminders.Reminder>)

  /** What the tools read from their surroundings: the current time, the
      `isoformat` and `strftime` renderings of a time, the search-page
      fetch, and the file system. */
  datatype Host = Host(now: int, iso: int -> string, wall: int -> string,
                       fetch: string -> WebSearch.Fetch, disk: ReadFile.Disk)

  const ToolNames: set<string> :=
    {"web_search", "read_file", "remember_info", "recall_memory", "set_reminder", "check_reminders"}

  /** The parameter list of each tool, in declaration order; all are required. */
  function Params(tool: string): seq<string> {
    match tool
    case "web_search" => ["query"]
    case "read_file" => ["path"]
    case "remember_info" => ["note"]
    case "set_reminder" => ["message", "minutes_from_now"]
    case _ => []
  }

  /** Arguments bound to parameters, in parameter order, or the
      `TypeError` text of a failed binding. */
  datatype Binding = Bound(values: seq<Json>) | Unbound(msg: string)

  /** The first parameter with no argument. */
  function FirstMissing(params: seq<string>, kw: map<string, Json>): (p: Option<string>)
    ensures p.None? <==> forall i | 0 <= i < |params| :: params[i] in kw
    ensures p.Some? ==> p.value in params && p.value !in kw
  {
    if params == [] then None
    else if params[0] !in kw then Some(params[0])
    else
      var rest := FirstMissing(params[1..], kw);
      assert forall i | 1 <= i < |params| :: params[i] == params[1..][i - 1];
      rest
  }

  /** Python's binding of a call's keyword arguments to the parameters
      `params`: an unexpected keyword or a missing parameter is a
      `TypeError`; otherwise every parameter receives its argument. */
  function Bind(tool: string, params: seq<string>, c: CallArgs): (b: Binding)
    ensures b.Bound? <==> var kw := if c.Kwargs? then c.kw else map[];
                          kw.Keys == set p | p in params
    ensures b.Bound? ==> |b.values| == |params|
                         && forall i | 0 <= i < |params| :: c.Kwargs? && b.values[i] == c.kw[params[i]]
  {
    var kw := if c.Kwargs? then c.kw else map[];
    if exists k | k in kw :: k !in params then
      Unbound(tool + "() got an unexpected keyword argument")
    else match FirstMissing(params, kw)
      case Some(p) => Unbound(tool + "() missing required argument: '" + p + "'")
      case None =>
        assert kw.Keys == set p | p in params;
        Bound(seq(|params|, i requires 0 <= i < |params| => kw[params[i]]))
  }

  /** A value used as text: `str(value)` for scalars. A list or dict is
      refused (see the README). */
  function TextArg(j: Json): (r: Option<string>)
    ensures j.JStr? ==> r == Some(j.s)
  {
    ScalarText(j)
  }

  function UnsupportedText(j: Json): string {
    "unsupported argument of type '" + TypeName(j) + "'"
  }

  /** The whole minutes and the argument's own text, or the exception
      `int()` raises. */
  datatype Minutes = Minutes(value: int, shown: string) | BadMinutes(outcome: ToolOutcome)

  /** Python's `int(minutes_from_now)`, with `str(minutes_from_now)` kept
      for the confirmation. */
  function MinutesArg(j: Json): (m: Minutes)
    ensures j.JNum? ==> m == Minutes(j.n, IntToString(j.n))
    ensures j.JBool? ==> m == (if j.b then Minutes(1, "True") else Minutes(0, "False"))
    ensures j.JStr? ==> (m.Minutes? <==> ParseInt(j.s).Some?)
    ensures j.JStr? && m.Minutes? ==> m == Minutes(ParseInt(j.s).value, j.s)
    ensures j.JStr? && m.BadMinutes? ==> m.outcome.OtherErr?
    ensures !(j.JNum? || j.JBool? || j.JStr?) ==> m.BadMinutes? && m.outcome.TypeErr?
    ensures m.BadMinutes? ==> !m.outcome.Returned?
  {
    match j
    case JNum(n) => Minutes(n, IntToString(n))
    case JBool(b) => if b then Minutes(1, "True") else Minutes(0, "False")
    case JStr(s) =>
      (match ParseInt(s)
       case Some(n) => Minutes(n, s)
       case None => BadMinutes(OtherErr("invalid literal for int() with base 10: '" + s + "'")))
    case _ => BadMinutes(TypeErr("int() argument must be a string, a bytes-like object or a real number, not '"
                                 + TypeName(j) + "'"))
  }

  function WebSearchTool(host: Host, c: CallArgs, s: Stores): (r: Ran<Stores>)
    ensures r.world == s
  {
    match Bind("web_search", Params("web_search"), c)
    case Unbound(e) => Ran(TypeErr(e), s)
    case Bound(vs) =>
      match TextArg(vs[0])
      case None => Ran(TypeErr(UnsupportedText(vs[0])), s)
      case Some(q) => Ran(Returned(WebSearch.Search(q, host.fetch(q))), s)
  }

  function ReadFileTool(host: Host, c: CallArgs, s: Stores): (r: Ran<Stores>)
    ensures r.world == s
  {
    match Bind("read_file", Params("read_file"), c)
    case Unbound(e) => Ran(TypeErr(e), s)
    case Bound(vs) =>
      match vs[0]
      case JStr(p) => Ran(Returned(ReadFile.ReadFile(host.disk, p)), s)
      case _ => Ran(TypeErr("join() argument must be str, bytes, or os.PathLike object, not '"
                            + TypeName(vs[0]) + "'"), s)
  }

  function RememberInfoTool(host: Host, c: CallArgs, s: Stores): (r: Ran<Stores>)
    ensures r.world.reminders == s.reminders
    ensures !r.outcome.Returned? ==> r.world == s
  {
    match Bind("remember_info", Params("remember_info"), c)
    case Unbound(e) => Ran(TypeErr(e), s)
    case Bound(vs) =>
      match TextArg(vs[0])
      case None => Ran(TypeErr(UnsupportedText(vs[0])), s)
      case Some(note) =>
        var done := Notes.RememberInfo(s.notes, host.iso(host.now), note);
        Ran(Returned(done.confirmation), s.(notes := done.notes))
  }

  function RecallMemoryTool(host: Host, c: CallArgs, s: Stores): (r: Ran<Stores>)
    ensures r.world == s
  {
    match Bind("recall_memory", Params("recall_memory"), c)
    case Unbound(e) => Ran(TypeErr(e), s)
    case Bound(_) => Ran(Returned(Notes.RecallMemory(s.notes)), s)
  }

  function SetReminderTool(host: Host, c: CallArgs, s: Stores): (r: Ran<Stores>)
    ensures r.world.notes == s.notes
    ensures !r.outcome.Returned? ==> r.world == s
  {
    match Bind("set_reminder", Params("set_reminder"), c)
    case Unbound(e) => Ran(TypeErr(e), s)
    case Bound(vs) =>
      match TextArg(vs[0])
      case None => Ran(TypeErr(UnsupportedText(vs[0])), s)
      case Some(message) =>
        match MinutesArg(vs[1])
        case BadMinutes(o) => Ran(o, s)
        case Minutes(m, shown) =>
          var done := Reminders.SetReminder(s.reminders, host.now, message, m, shown, host.iso, host.wall);
          Ran(Returned(done.confirmation), s.(reminders := done.reminders))
  }

  function CheckRemindersTool(host: Host, c: CallArgs, s: Stores): (r: Ran<Stores>)
    ensures r.world.notes == s.notes
  {
    match Bind("check_reminders", Params("check_reminders"), c)
    case Unbound(e) => Ran(TypeErr(e), s)
    case Bound(_) =>
      var done := Reminders.CheckReminders(s.reminders, host.now);
      Ran(Returned(done.report), s.(reminders := done.reminders))
  }

  /** `TOOLS`: exactly the six tool names, each mapped to its tool. */
  function Tools(host: Host): (t: map<string, Tool<Stores>>)
    ensures t.Keys == ToolNames
  {
    map[
      "web_search" := (c, s) => WebSearchTool(host, c, s),
      "read_file" := (c, s) => ReadFileTool(host, c, s),
      "remember_info" := (c, s) => RememberInfoTool(host, c, s),
      "recall_memory" := (c, s) => RecallMemoryTool(host, c, s),
      "set_reminder" := (c, s) => SetReminderTool(host, c, s),
      "check_reminders" := (c, s) => CheckRemindersTool(host, c, s)
    ]
  }

  /** Each registered name calls its own tool. */
  lemma ToolsAre(host: Host, c: CallArgs, s: Stores)
    ensures var t := Tools(host);
            && t["web_search"](c, s) == WebSearchTool(host, c, s)
            && t["read_file"](c, s) == ReadFileTool(host, c, s)
            && t["remember_info"](c, s) == RememberInfoTool(host, c, s)
            && t["recall_memory"](c, s) == RecallMemoryTool(host, c, s)
            && t["set_reminder"](c, s) == SetReminderTool(host, c, s)
            && t["check_reminders"](c, s) == CheckRemindersTool(host, c, s)
  {
  }

  // ---------------------------------------------------------------------
  // Each tool, called as its signature asks, does what its operation does

  /** `remember_info(note=…)` saves the note stamped with the current
      time and leaves the reminders alone. */
  lemma RememberInfoToolSaves(host: Host, s: Stores, note: string)
    ensures var done := Notes.RememberInfo(s.notes, host.iso(host.now), note);
            RememberInfoTool(host, Kwargs(map["note" := JStr(note)]), s)
            == Ran(Returned(done.confirmation), s.(notes := done.notes))
  {
    var kw := map["note" := JStr(note)];
    assert kw.Keys == set p | p in Params("remember_info");
    assert Bind("remember_info", Params("remember_info"), Kwargs(kw)).values[0] == JStr(note);
  }

  /** `set_reminder(message=…, minutes_from_now=n)` schedules the message
      `n` minutes from now and leaves the notes alone. */
  lemma SetReminderToolSchedules(host: Host, s: Stores, message: string, n: int)
    ensures var done := Reminders.SetReminder(s.reminders, host.now, message, n, IntToString(n), host.iso, host.wall);
            SetReminderTool(host, Kwargs(map["message" := JStr(message), "minutes_from_now" := JNum(n)]), s)
            == Ran(Returned(done.confirmation), s.(reminders := done.reminders))
  {
    var kw := map["message" := JStr(message), "minutes_from_now" := JNum(n)];
    assert kw.Keys == set p | p in Params("set_reminder");
    var b := Bind("set_reminder", Params("set_reminder"), Kwargs(kw));
    assert b.values[0] == JStr(message) && b.values[1] == JNum(n);
  }

  /** `check_reminders()` reports and marks the due reminders. */
  lemma CheckRemindersToolReports(host: Host, s: Stores)
    ensures var done := Reminders.CheckReminders(s.reminders, host.now);
            CheckRemindersTool(host, NoArgs, s) == Ran(Returned(done.report), s.(reminders := done.reminders))
  {
    var kw: map<string, Json> := map[];
    assert kw.Keys == set p | p in Params("check_reminders");
  }

  /** `recall_memory()` lists the notes; the stores are unchanged. */
  lemma RecallMemoryToolRecalls(host: Host, s: Stores)
    ensures RecallMemoryTool(host, NoArgs, s) == Ran(Returned(Notes.RecallMemory(s.notes)), s)
  {
    var kw: map<string, Json> := map[];
    assert kw.Keys == set p | p in Params("recall_memory");
  }

  /** A call with a keyword the tool does not declare, or without one it
      requires, is a `TypeError`, and the tool changes nothing. */
  lemma WrongKeywordsRejected(host: Host, s: Stores, name: string, kw: map<string, Json>)
    requires name in ToolNames
    requires kw.Keys != set p | p in Params(name)
    ensures var r := Tools(host)[name](Kwargs(kw), s);
            r.outcome.TypeErr? && r.world == s
  {
  }
}

=== FILE: reminders.dfy ===
/** The reminder store and the `set_reminder` / `check_reminders` tools
    (tools.py:194-257) as pure transitions over an in-memory list. Time is
    an integer count of seconds; formatting a time as text is supplied from
    outside. */
module Reminders {

  import opened Options
  import opened PyStr

  /** One stored reminder. `dueText` is the stored `due_at` text and
      `dueAt` its reading by `datetime.fromisoformat`: `None` when that
      rejects the text. */
  datatype Reminder = Reminder(message: string, createdAt: int, dueText: string,
                               dueAt: Option<int>, delivered: bool)

  const SecondsPerMinute := 60
  const NoneDue := "You don't have any reminders due right now."
  const DueHeader := "Here are your due reminders:"

  /** The record is reported, and marked delivered, by a check at `now`. */
  predicate IsDue(r: Reminder, now: int) {
    !r.delivered && r.dueAt.Some? && r.dueAt.value <= now
  }

  datatype Created = Created(reminders: seq<Reminder>, confirmation: string)

  /** `set_reminder(message, minutes_from_now)` at time `now`; `shown` is
      the argument as the caller wrote it, `iso` renders the stored due
      time and `wall` the one in the confirmation. */
  function SetReminder(rs: seq<Reminder>, now: int, message: string, minutes: int,
                       shown: string, iso: int -> string, wall: int -> string): (r: Created)
    ensures |r.reminders| == |rs| + 1 && r.reminders[..|rs|] == rs
    ensures var n := r.reminders[|rs|];
            n.message == message && n.createdAt == now && !n.delivered
            && n.dueAt == Some(now + minutes * SecondsPerMinute)
            && n.dueText == iso(now + minutes * SecondsPerMinute)
  {
    var due := now + minutes * SecondsPerMinute;
    var rs' := rs + [Reminder(message, now, iso(due), Some(due), false)];
    Created(rs', "Reminder set: '" + message + "' in about " + shown
                 + " minute(s), around " + wall(due) + ".")
  }

  /** The record after a check at `now`: due records become delivered. */
  function Mark(r: Reminder, now: int): Reminder {
    if IsDue(r, now) then r.(delivered := true) else r
  }

  /** The loop of `check_reminders` over the store: exactly the due records
      are marked delivered, everything else is kept as it was. */
  function MarkDue(rs: seq<Reminder>, now: int): (r: seq<Reminder>)
    ensures |r| == |rs|
    ensures forall i | 0 <= i < |rs| ::
              r[i].message == rs[i].message && r[i].createdAt == rs[i].createdAt
              && r[i].dueText == rs[i].dueText && r[i].dueAt == rs[i].dueAt
              && r[i].delivered == (rs[i].delivered || IsDue(rs[i], now))
    decreases |rs|
  {
    if rs == [] then [] else [Mark(rs[0], now)] + MarkDue(rs[1..], now)
  }

  /** The records a check at `now` reports, in list order. */
  function DueOnes(rs: seq<Reminder>, now: int): (d: seq<Reminder>)
    ensures |d| <= |rs|
    ensures forall r | r in d :: IsDue(r, now) && r in rs
    ensures forall i | 0 <= i < |rs| && IsDue(rs[i], now) :: rs[i] in d
    ensures d == [] <==> forall i | 0 <= i < |rs| :: !IsDue(rs[i], now)
    decreases |rs|
  {
    if rs == [] then []
    else if IsDue(rs[0], now) then [rs[0]] + DueOnes(rs[1..], now)
    else
      assert forall i | 1 <= i < |rs| :: rs[i] == rs[1..][i - 1];
      DueOnes(rs[1..], now)
  }

  /** The report line of a record: its due time as stored, not re-rendered. */
  function Line(r: Reminder): string {
    "- " + r.message + " (due at " + r.dueText + ")"
  }

  datatype Checked = Checked(reminders: seq<Reminder>, report: string)

  /** `check_reminders()` at time `now`. */
  function CheckReminders(rs: seq<Reminder>, now: int): (r: Checked)
    ensures r.reminders == MarkDue(rs, now)
    ensures r.report == NoneDue <==> forall i | 0 <= i < |rs| :: !IsDue(rs[i], now)
    ensures r.report != NoneDue ==> StartsWith(r.report, DueHeader)
    ensures r.report != NoneDue ==>
              r.report == Join("\n", [DueHeader] + LinesOf(DueOnes(rs, now), Line))
  {
    var due := DueOnes(rs, now);
    var marked := MarkDue(rs, now);
    if due == [] then Checked(marked, NoneDue)
    else
      var report := Join("\n", [DueHeader] + LinesOf(due, Line));
      assert StartsWith(report, DueHeader) by {
        assert report == DueHeader + "\n" + Join("\n", LinesOf(due, Line));
      }
      assert report[0] != NoneDue[0];
      Checked(marked, report)
  }

  /** A second check at the same time finds nothing due: delivered records
      are skipped. */
  lemma CheckTwiceReportsNothing(rs: seq<Reminder>, now: int)
    ensures var first := CheckReminders(rs, now);
            CheckReminders(first.reminders, now).report == NoneDue
            && CheckReminders(first.reminders, now).reminders == first.reminders
  {
    var once := MarkDue(rs, now);
    var twice := MarkDue(once, now);
    assert forall i | 0 <= i < |once| :: !IsDue(once[i], now);
    assert |twice| == |once|;
    forall i | 0 <= i < |once|
      ensures twice[i] == once[i]
    {
    }
  }

  /** A record whose due time cannot be parsed is never delivered. */
  lemma UnparseableStaysPending(rs: seq<Reminder>, now: int, i: nat)
    requires i < |rs| && rs[i].dueAt.None?
    ensures CheckReminders(rs, now).reminders[i] == rs[i]
  {
  }

  /** Reporting order: the due records of `a + b` are those of `a`
      followed by those of `b`. */
  lemma {:induction false} DueOnesAppend(a: seq<Reminder>, b: seq<Reminder>, now: int)
    ensures DueOnes(a + b, now) == DueOnes(a, now) + DueOnes(b, now)
    decreases |a|
  {
    if a == [] {
      assert a + b == b;
    } else {
      assert (a + b)[1..] == a[1..] + b;
      DueOnesAppend(a[1..], b, now);
    }
  }

  /** Every record a check at `now` marks delivered is reported, by its
      line, in that check's report. */
  lemma ReportListsDelivered(rs: seq<Reminder>, now: int, i: nat)
    requires i < |rs| && !rs[i].delivered && MarkDue(rs, now)[i].delivered
    ensures Contains(CheckReminders(rs, now).report, Line(rs[i]))
  {
    assert IsDue(rs[i], now);
    DueListed(rs, now, i);
    var c := CheckReminders(rs, now);
    assert c.report != NoneDue;
  }

  /** A due record's line is among the lines of the due records. */
  lemma DueListed(rs: seq<Reminder>, now: int, i: nat)
    requires i < |rs| && IsDue(rs[i], now)
    ensures Contains(Join("\n", [DueHeader] + LinesOf(DueOnes(rs, now), Line)), Line(rs[i]))
  {
    var due := DueOnes(rs, now);
    var j :| 0 <= j < |due| && due[j] == rs[i];
    var items := [DueHeader] + LinesOf(due, Line);
    assert items[j + 1] == Line(rs[i]);
    JoinContains("\n", items, j + 1);
  }

  /** `set_reminder(message, 0)` followed by a check at any later time
      reports the new reminder, as the last line with its stored due text,
      and delivers it. */
  lemma SetNowThenCheck(rs: seq<Reminder>, now: int, later: int, message: string,
                        shown: string, iso: int -> string, wall: int -> string)
    requires now <= later
    ensures var created := SetReminder(rs, now, message, 0, shown, iso, wall);
            var checked := CheckReminders(created.reminders, later);
            && checked.reminders[|rs|].delivered
            && Contains(checked.report, "- " + message + " (due at " + iso(now) + ")")
  {
    var created := SetReminder(rs, now, message, 0, shown, iso, wall);
    var n := Reminder(message, now, iso(now), Some(now), false);
    assert created.reminders == rs + [n];
    assert IsDue(n, later);
    DueOnesAppend(rs, [n], later);
    assert DueOnes([n], later) == [n];
    var due := DueOnes(created.reminders, later);
    assert due[|due| - 1] == n;
    var items := [DueHeader] + LinesOf(due, Line);
    assert items[|due|] == Line(n);
    JoinContains("\n", items, |due|);
  }
}

=== FILE: tool_calls.dfy ===
/** The interface between the dispatcher and the tools: how a tool is
    invoked and how an invocation can end. A tool is a function of its
    arguments and of the state it works on (the stores it reads and
    writes). */
module ToolCalls {

  import opened Json

  /** `func()` when the arguments are falsy, `func(**kwargs)` otherwise. */
  datatype CallArgs = NoArgs | Kwargs(kw: map<string, Json>)

  /** A returned value (every tool returns text, so `str(result)` is the
      text itself), a `TypeError`, or any other exception, with its text. */
  datatype ToolOutcome = Returned(value: string) | TypeErr(msg: string) | OtherErr(msg: string)

  /** The outcome of one invocation and the state it leaves behind. */
  datatype Ran<W> = Ran(outcome: ToolOutcome, world: W)

  type Tool<!W> = (CallArgs, W) -> Ran<W>
}

=== FILE: web_search.dfy ===
/** `web_search` (tools.py:53-115): the page fetch is supplied from outside;
    the result extraction is a pure function of the page text with
    Python's `find` / `rfind` / slicing semantics. */
module WebSearch {

  import opened Options
  import opened PyStr

  /** The outcome of the HTTP fetch. */
  datatype Fetch =
    | NoRequestsPackage
    | Raised(detail: string)
    | Response(status: int, body: string)

  const Marker := "class=\"result__a\""
  const HrefOpen := "href=\""
  const MaxResults := 5
  const MissingPackage := "Web search is not available because the 'requests' package is missing. Install it with: pip install requests"
  const ResultsHeader := "Top search results:\n\n"

  /** Titles have `&amp;` and then `&quot;` decoded. */
  function Unescape(t: string): string {
    Replace(Replace(t, "&amp;", "&"), "&quot;", "\"")
  }

  /** A title without any `&` is shown as it is. */
  lemma UnescapePlain(t: string)
    requires !Contains(t, "&")
    ensures Unescape(t) == t
  {
    if Contains(t, "&amp;") {
      assert OccursAt("&amp;", "&", 0);
      ContainsTrans(t, "&amp;", "&");
    }
    ReplaceAbsent(t, "&amp;", "&");
    if Contains(t, "&quot;") {
      assert OccursAt("&quot;", "&", 0);
      ContainsTrans(t, "&quot;", "&");
    }
    ReplaceAbsent(t, "&quot;", "\"");
  }

  /** Text without `&` holds no entity. */
  lemma NoAmpNoEntity(t: string, e: string)
    requires !Contains(t, "&") && |e| > 0 && e[0] == '&'
    ensures !Contains(t, e)
  {
    if Contains(t, e) {
      assert OccursAt(e, "&", 0);
      ContainsTrans(t, e, "&");
    }
  }

  /** In `x + m + y`, where only the first character of `m` is an `&`,
      an entity can start only at that `&`. */
  lemma EntityOnlyAt(x: string, m: string, y: string, e: string, j: int)
    requires !Contains(x, "&") && !Contains(y, "&")
    requires |m| > 0 && m[0] == '&' && forall k | 1 <= k < |m| :: m[k] != '&'
    requires |e| > 0 && e[0] == '&' && OccursAt(x + m + y, e, j)
    ensures j == |x|
  {
    var s := x + m + y;
    assert s[j] == e[0];
    if j < |x| {
      assert x[j..j + 1] == "&";
      assert OccursAt(x, "&", j);
    } else if j >= |x| + |m| {
      var k := j - |x| - |m|;
      assert y[k] == s[j];
      assert y[k..k + 1] == "&";
      assert OccursAt(y, "&", k);
    }
  }

  /** An escaped quote between plain texts is decoded. */
  lemma UnescapeQuot(x: string, y: string)
    requires !Contains(x, "&") && !Contains(y, "&")
    ensures Unescape(x + "&quot;" + y) == x + "\"" + y
  {
    NoAmpAtQuot(x, y);
    ReplaceAbsent(x + "&quot;" + y, "&amp;", "&");
    QuotDecoded(x, y);
  }

  /** The one `&` of `x + "&quot;" + y` starts no `&amp;`. */
  lemma NoAmpAtQuot(x: string, y: string)
    requires !Contains(x, "&") && !Contains(y, "&")
    ensures !Contains(x + "&quot;" + y, "&amp;")
  {
    var s := x + "&quot;" + y;
    forall j | 0 <= j <= |s| - 5
      ensures !OccursAt(s, "&amp;", j)
    {
      if j == |x| {
        assert s[j..j + 5][1] == 'q' != "&amp;"[1];
      } else if OccursAt(s, "&amp;", j) {
        EntityOnlyAt(x, "&quot;", y, "&amp;", j);
      }
    }
  }

  /** The second replace turns the one `&quot;` into `"`. */
  lemma QuotDecoded(x: string, y: string)
    requires !Contains(x, "&") && !Contains(y, "&")
    ensures Replace(x + "&quot;" + y, "&quot;", "\"") == x + "\"" + y
  {
    var s := x + "&quot;" + y;
    assert s[|x|..|x| + 6] == "&quot;";
    forall j | 0 <= j < |x|
      ensures !OccursAt(s, "&quot;", j)
    {
      if OccursAt(s, "&quot;", j) {
        EntityOnlyAt(x, "&quot;", y, "&quot;", j);
      }
    }
    ReplaceAtFirst(s, "&quot;", "\"", |x|);
    assert s[..|x|] == x && s[|x| + 6..] == y;
    NoAmpNoEntity(y, "&quot;");
    ReplaceAbsent(y, "&quot;", "\"");
  }

  /** An escaped ampersand between plain texts is decoded, unless the
      text after it completes an escaped quote. */
  lemma UnescapeAmp(x: string, y: string)
    requires !Contains(x, "&") && !Contains(y, "&") && !StartsWith(y, "quot;")
    ensures Unescape(x + "&amp;" + y) == x + "&" + y
  {
    AmpDecoded(x, y);
    NoQuotAfterAmp(x, y);
    ReplaceAbsent(x + "&" + y, "&quot;", "\"");
  }

  /** The first replace turns the one `&amp;` into `&`. */
  lemma AmpDecoded(x: string, y: string)
    requires !Contains(x, "&") && !Contains(y, "&")
    ensures Replace(x + "&amp;" + y, "&amp;", "&") == x + "&" + y
  {
    var s := x + "&amp;" + y;
    assert s[|x|..|x| + 5] == "&amp;";
    forall j | 0 <= j < |x|
      ensures !OccursAt(s, "&amp;", j)
    {
      if OccursAt(s, "&amp;", j) {
        EntityOnlyAt(x, "&amp;", y, "&amp;", j);
      }
    }
    ReplaceAtFirst(s, "&amp;", "&", |x|);
    assert s[..|x|] == x && s[|x| + 5..] == y;
    NoAmpNoEntity(y, "&amp;");
    ReplaceAbsent(y, "&amp;", "&");
  }

  /** The decoded `&` starts no `&quot;` unless the text after it reads
      `quot;`. */
  lemma NoQuotAfterAmp(x: string, y: string)
    requires !Contains(x, "&") && !Contains(y, "&") && !StartsWith(y, "quot;")
    ensures !Contains(x + "&" + y, "&quot;")
  {
    var t := x + "&" + y;
    forall j | 0 <= j <= |t| - 6
      ensures !OccursAt(t, "&quot;", j)
    {
      if j == |x| {
        if |y| >= 5 {
          assert t[j + 1..j + 6] == y[..5];
        }
      } else if OccursAt(t, "&quot;", j) {
        EntityOnlyAt(x, "&", y, "&quot;", j);
      }
    }
  }

  /** The two replaces run one after the other, so an escaped `&quot;`
      is decoded twice, down to a quote. */
  lemma EscapedQuoteDecodedTwice()
    ensures Unescape("&amp;quot;") == "\""
  {
    var s := "&amp;quot;";
    assert OccursAt(s, "&amp;", 0);
    ReplaceAtFirst(s, "&amp;", "&", 0);
    assert s[5..] == "quot;";
    assert Replace("quot;", "&amp;", "&") == "quot;";
    assert Replace(s, "&amp;", "&") == "&quot;";
    assert Replace("&quot;", "&quot;", "\"") == "\"";
  }

  /** `line` is numbered `k`. */
  predicate NumberedAs(line: string, k: nat) {
    StartsWith(line, IntToString(k) + ". ")
  }

  /** The `k`-th result line: its number, the title and the link. */
  function Entry(k: nat, title: string, url: string): (r: string)
    ensures NumberedAs(r, k)
  {
    var r := IntToString(k) + ". " + title + "\n   " + url;
    assert r[..|IntToString(k) + ". "|] == IntToString(k) + ". ";
    r
  }

  /** One anchor found by the loop: its title, its link, and the position
      the next search starts from. */
  datatype Hit = Hit(title: string, url: string, next: int)

  /** One pass of the loop body from search position `start`: `None` when
      the loop breaks (no further anchor, or no `href="` before it). */
  function NextHit(text: string, start: int): Option<Hit>
  {
    var idx := Find(text, Marker, start);
    if idx == -1 then None
    else
      var hrefAt := RFind(text, HrefOpen, 0, idx);
      if hrefAt == -1 then None
      else
        var urlStart := hrefAt + |HrefOpen|;
        var url := Slice(text, urlStart, Find(text, "\"", urlStart));
        var titleStart := Find(text, ">", idx) + 1;
        var titleEnd := Find(text, "</a>", titleStart);
        Some(Hit(Unescape(Slice(text, titleStart, titleEnd)), url, titleEnd))
  }

  /** The loop goes on exactly when a result anchor follows `start` and an
      `href="` lies wholly before that anchor; the link it reads stops
      before the first closing quote. */
  lemma NextHitContinues(text: string, start: int)
    ensures var idx := Find(text, Marker, start);
            NextHit(text, start).Some? <==> idx != -1 && Contains(text[..idx], HrefOpen)
    ensures var h := NextHit(text, start);
            h.Some? ==> forall k | 0 <= k < |h.value.url| :: h.value.url[k] != '"'
  {
    var idx := Find(text, Marker, start);
    if idx != -1 {
      var hrefAt := RFind(text, HrefOpen, 0, idx);
      HrefBefore(text, idx, hrefAt);
      if hrefAt != -1 {
        LinkUnquoted(text, hrefAt + |HrefOpen|);
      }
    }
  }

  /** `rfind('href="', 0, idx)` fails exactly when no `href="` lies wholly
      before `idx`. */
  lemma HrefBefore(text: string, idx: nat, hrefAt: int)
    requires idx <= |text| && hrefAt == RFind(text, HrefOpen, 0, idx)
    ensures hrefAt != -1 <==> Contains(text[..idx], HrefOpen)
  {
    if hrefAt != -1 {
      assert text[..idx][hrefAt..hrefAt + |HrefOpen|] == text[hrefAt..hrefAt + |HrefOpen|];
      assert OccursAt(text[..idx], HrefOpen, hrefAt);
    }
    if Contains(text[..idx], HrefOpen) {
      var j :| 0 <= j <= idx - |HrefOpen| && OccursAt(text[..idx], HrefOpen, j);
      assert text[..idx][j..j + |HrefOpen|] == text[j..j + |HrefOpen|];
      assert OccursAt(text, HrefOpen, j);
    }
  }

  /** The link sliced from `urlStart` up to the next `"` holds no `"`. */
  lemma LinkUnquoted(text: string, urlStart: nat)
    ensures var url := Slice(text, urlStart, Find(text, "\"", urlStart));
            forall k | 0 <= k < |url| :: url[k] != '"'
  {
    var q := Find(text, "\"", urlStart);
    var url := Slice(text, urlStart, q);
    forall k | 0 <= k < |url|
      ensures url[k] != '"'
    {
      var a, b := Clamp(urlStart, |text|), Clamp(q, |text|);
      assert url == text[a..b];
      assert url[k] == text[a + k];
      if text[a + k] == '"' {
        assert text[a + k..a + k + 1] == "\"";
        assert OccursAt(text, "\"", a + k);
      }
    }
  }

  /** The extraction loop, from search position `start` with the results
      `found` so far. Results are numbered consecutively from 1 and at
      most five are taken. */
  function Collect(text: string, start: int, found: seq<string>): (r: seq<string>)
    requires |found| <= MaxResults
    ensures |found| <= |r| <= MaxResults
    ensures r[..|found|] == found
    decreases MaxResults - |found|
  {
    if |found| == MaxResults then found
    else
      match NextHit(text, start)
      case None => found
      case Some(h) =>
        var entry := Entry(|found| + 1, h.title, h.url);
        var more := found + [entry];
        var r := Collect(text, h.next, more);
        assert r[..|found|] == more[..|found|] == found;
        r
  }

  /** One iteration of the loop: it stops when `NextHit` finds nothing;
      otherwise the next result is the entry of the hit found, and the
      loop goes on from the hit's end. */
  lemma CollectStep(text: string, start: int, found: seq<string>)
    requires |found| < MaxResults
    ensures NextHit(text, start).None? ==> Collect(text, start, found) == found
    ensures NextHit(text, start).Some? ==>
              var h := NextHit(text, start).value;
              var entry := Entry(|found| + 1, h.title, h.url);
              && Collect(text, start, found) == Collect(text, h.next, found + [entry])
              && |Collect(text, start, found)| > |found|
              && Collect(text, start, found)[|found|] == entry
  {
    match NextHit(text, start)
    case None =>
    case Some(h) =>
      var entry := Entry(|found| + 1, h.title, h.url);
      var more := found + [entry];
      var r := Collect(text, h.next, more);
      assert r[..|more|] == more;
      assert r[|found|] == more[|found|];
  }

  /** What the first result holds, read off the page: the anchor at `i`
      is the first, `hs` is the last `href="` wholly before it and `q` the
      first quote after that; `g` is the first `>` from the anchor on and
      `e` the first `</a>` after it. The result is numbered 1, shows the
      decoded text between `>` and `</a>`, and links to the text between
      `href="` and the quote. */
  lemma FirstResultReadsPage(body: string, i: nat, hs: nat, q: nat, g: nat, e: nat)
    requires OccursAt(body, Marker, i) && forall j | 0 <= j < i :: !OccursAt(body, Marker, j)
    requires OccursAt(body, HrefOpen, hs) && hs + |HrefOpen| <= i
    requires forall j | hs < j && j + |HrefOpen| <= i :: !OccursAt(body, HrefOpen, j)
    requires OccursAt(body, "\"", q) && hs + |HrefOpen| <= q
    requires forall j | hs + |HrefOpen| <= j < q :: !OccursAt(body, "\"", j)
    requires OccursAt(body, ">", g) && i <= g && forall j | i <= j < g :: !OccursAt(body, ">", j)
    requires OccursAt(body, "</a>", e) && g + 1 <= e
    requires forall j | g + 1 <= j < e :: !OccursAt(body, "</a>", j)
    ensures |Results(body)| >= 1
    ensures Results(body)[0] == Entry(1, Unescape(body[g + 1..e]), body[hs + |HrefOpen|..q])
  {
    FindIs(body, Marker, 0, i);
    RFindIs(body, HrefOpen, i, hs);
    FindIs(body, "\"", hs + |HrefOpen|, q);
    FindIs(body, ">", i, g);
    FindIs(body, "</a>", g + 1, e);
    HitAt(body, i, hs, q, g, e);
    CollectStep(body, 0, []);
  }

  /** The hit read once each search of the loop body has found its
      position. */
  lemma HitAt(body: string, i: nat, hs: nat, q: nat, g: nat, e: nat)
    requires hs + |HrefOpen| <= q <= |body| && g + 1 <= e <= |body|
    requires Find(body, Marker, 0) == i && RFind(body, HrefOpen, 0, i) == hs
    requires Find(body, "\"", hs + |HrefOpen|) == q
    requires Find(body, ">", i) == g && Find(body, "</a>", g + 1) == e
    ensures NextHit(body, 0) == Some(Hit(Unescape(body[g + 1..e]), body[hs + |HrefOpen|..q], e))
  {
    var urlStart := RFind(body, HrefOpen, 0, Find(body, Marker, 0)) + |HrefOpen|;
    assert urlStart == hs + |HrefOpen|;
    var url := Slice(body, urlStart, Find(body, "\"", urlStart));
    assert url == body[hs + |HrefOpen|..q];
    var titleStart := Find(body, ">", Find(body, Marker, 0)) + 1;
    assert titleStart == g + 1;
    var title := Slice(body, titleStart, Find(body, "</a>", titleStart));
    assert title == body[g + 1..e];
    assert NextHit(body, 0) == Some(Hit(Unescape(title), url, e));
  }

  /** Every result the loop adds is numbered by its position, counting
      from 1. */
  lemma {:induction false} CollectNumbered(text: string, start: int, found: seq<string>, i: nat)
    requires |found| <= MaxResults
    requires |found| <= i < |Collect(text, start, found)|
    ensures NumberedAs(Collect(text, start, found)[i], i + 1)
    decreases MaxResults - |found|
  {
    var h := NextHit(text, start).value;
    var entry := Entry(|found| + 1, h.title, h.url);
    var more := found + [entry];
    if i == |found| {
      assert Collect(text, h.next, more)[..|more|] == more;
      assert Collect(text, start, found)[i] == more[i] == entry;
    } else {
      CollectNumbered(text, h.next, more, i);
    }
  }

  /** The results extracted from a page. */
  function Results(text: string): (r: seq<string>)
    ensures |r| <= MaxResults
    ensures forall i | 0 <= i < |r| :: NumberedAs(r[i], i + 1)
  {
    var r := Collect(text, 0, []);
    assert forall i | 0 <= i < |r| :: NumberedAs(r[i], i + 1) by {
      forall i | 0 <= i < |r|
        ensures NumberedAs(r[i], i + 1)
      {
        CollectNumbered(text, 0, [], i);
      }
    }
    r
  }

  /** `web_search(query)` given the outcome of fetching the results page:
      each failure has its own message; a page gives the no-results text,
      or the header followed by every extracted result. */
  function Search(query: string, fetch: Fetch): (r: string)
    ensures fetch.NoRequestsPackage? ==> r == MissingPackage
    ensures fetch.Raised? ==> r == "Web search failed: " + fetch.detail
    ensures fetch.Response? && fetch.status != 200 ==>
              r == "Web search failed with status code " + IntToString(fetch.status)
    ensures fetch.Response? && fetch.status == 200 && Results(fetch.body) == [] ==>
              r == "No results found for: " + query
    ensures fetch.Response? && fetch.status == 200 && Results(fetch.body) != [] ==>
              && StartsWith(r, ResultsHeader)
              && forall i | 0 <= i < |Results(fetch.body)| :: Contains(r, Results(fetch.body)[i])
  {
    match fetch
    case NoRequestsPackage => MissingPackage
    case Raised(e) => "Web search failed: " + e
    case Response(status, body) =>
      if status != 200 then "Web search failed with status code " + IntToString(status)
      else
        var results := Results(body);
        if results == [] then "No results found for: " + query
        else
          var listing := Join("\n\n", results);
          ListedUnderHeader(listing, results);
          ResultsHeader + listing
  }

  /** Each result joined into `listing` is found in the text under the
      header. */
  lemma ListedUnderHeader(listing: string, results: seq<string>)
    requires listing == Join("\n\n", results)
    ensures StartsWith(ResultsHeader + listing, ResultsHeader)
    ensures forall i | 0 <= i < |results| :: Contains(ResultsHeader + listing, results[i])
  {
    assert (ResultsHeader + listing)[..|ResultsHeader|] == ResultsHeader;
    forall i | 0 <= i < |results|
      ensures Contains(ResultsHeader + listing, results[i])
    {
      JoinContains("\n\n", results, i);
      ContainsWithin(ResultsHeader, listing, "", results[i]);
      assert ResultsHeader + listing + "" == ResultsHeader + listing;
    }
  }

  /** A page with no result anchor yields the no-results message. */
  lemma NoAnchorNoResults(query: string, body: string)
    requires !Contains(body, Marker)
    ensures Search(query, Response(200, body)) == "No results found for: " + query
  {
    var idx := Find(body, Marker, 0);
    if idx != -1 {
      ContainsAt(body, Marker, idx);
    }
  }

  /** A page whose first result anchor has a link before it yields at
      least one result, listed under the header. */
  lemma AnchorGivesResult(query: string, body: string, i: nat)
    requires OccursAt(body, Marker, i) && forall j | 0 <= j < i :: !OccursAt(body, Marker, j)
    requires Contains(body[..i], HrefOpen)
    ensures StartsWith(Search(query, Response(200, body)), ResultsHeader)
  {
    assert Find(body, Marker, 0) == i;
    var h :| 0 <= h <= i - |HrefOpen| && OccursAt(body[..i], HrefOpen, h);
    assert body[..i][h..h + |HrefOpen|] == body[h..h + |HrefOpen|];
    assert OccursAt(body, HrefOpen, h);
    assert NextHit(body, 0).Some?;
    var rs := Results(body);
    assert |rs| >= 1;
    var r := ResultsHeader + Join("\n\n", rs);
    assert r[..|ResultsHeader|] == ResultsHeader;
  }
}
